=== FILE: README.md ===
# gosshm SSH config store, modelled in Dafny

gosshm manages the hosts of the user's `~/.ssh/config`. Its store, in
`internal/config/ssh.go`, does five things:

- It reads the file into a list of `SSHHost` records. A `Host` line opens a
  record. `HostName`, `User`, `Port`, `IdentityFile` and `ProxyJump` fill in
  its fields, with keys in any case. A `# Tags: a, b` comment hands its
  labels to the next `Host` line.
- It looks a host up by name: `HostExists` and `GetSSHHost`.
- It appends a new host's block to the file (`AddSSHHost`). A name the file
  already declares is refused.
- It rewrites every block of a host in place (`UpdateSSHHost`).
- It removes every block of a host, together with one blank line after each
  block (`DeleteSSHHost`).

The model follows the code's structure:

- `Results` holds `Option`, `Result` and the two errors.
- `Text` models the Go `strings` functions the store relies on: `TrimSpace`,
  `Fields`, `Split`, `Join`, `ToLower` and `HasPrefix`.
- `Hosts` holds the host record and the lookups.
- `Parser` models the line loop of `ParseSSHConfigFile` as a fold of `Step`
  over each line's classification.
- `Block` models the lines `AddSSHHost` and `UpdateSSHHost` write, and the
  proof that the parser reads them back.
- `Store` covers the file as text and the append.
- `Splice` models the walk `UpdateSSHHost` and `DeleteSSHHost` share. It cuts
  the file into kept lines and blocks of the host.
- `Update` and `Delete` each give the result of that walk as a function. Each
  also has a method that follows the Go loop statement by statement, and the
  method is proved equal to the function.

## Model

| member | source | states |
|---|---|---|
| Hosts.GetHost | internal/config/ssh.go:259-272 | the lookup succeeds exactly when some host has the name; it then returns the first such host, and otherwise reports `NotFound` |
| Hosts.FirstIndex | internal/config/ssh.go:266-270 | the position found is that of the first host with the name, or the end of the list when there is none |
| Hosts.HostExistsByLoop | internal/config/ssh.go:244-257 | the loop of `HostExists` answers true exactly when some host has the name, that is when the first-match position is inside the list |
| Store.LookupText | internal/config/ssh.go:244-272 | looking a name up in the file's text succeeds iff the parsed file has a host of that name; the host returned has that name and was parsed from the file; a failure is `NotFound` |
| Store.TrailingNewlineIgnored | internal/config/ssh.go:68-71 | a final newline changes neither the parsed hosts nor the pending tags: the empty piece after it reads as a blank line |
| Text.Trim | internal/config/ssh.go:71 | a trimmed line starts and ends with a non-space character and is no longer than the line |
| Text.TrimLeftFacts | internal/config/ssh.go:71 | trimming on the left removes a prefix made only of whitespace |
| Text.TrimRightFacts | internal/config/ssh.go:71 | trimming on the right removes a suffix made only of whitespace |
| Text.TrimEmpty | internal/config/ssh.go:73-76 | a line trims to nothing exactly when it is all whitespace |
| Text.FieldsTokens | internal/config/ssh.go:100 | every field of a line is a non-empty run of non-space characters |
| Text.SplitJoin | internal/config/ssh.go:379 | joining lines that hold no newline with newlines and splitting the result gives back the same lines |
| Text.JoinSplit | internal/config/ssh.go:297 | splitting a text at newlines and joining the pieces with newlines gives back the text |
| Text.SplitUnlines | internal/config/ssh.go:189-239 | lines written one per newline split back into the same lines, followed by one empty piece |
| Parser.Labels | internal/config/ssh.go:84-89 | the labels of a tags comment are the comma-separated pieces that are not blank, each trimmed, in order; so they are non-empty and trimmed, at most one per piece, and exactly the trimmed pieces when no piece is blank |
| Parser.Classify | internal/config/ssh.go:71-106 | a line is blank exactly when it is all whitespace; once trimmed, it is a tags comment exactly when it starts with `# Tags:`, another comment exactly when it starts with `#` otherwise, and a directive exactly when it does not start with `#` and has two or more fields; a directive's key is the first field lower-cased and its value splits back into the remaining fields, single-spaced |
| Parser.WordsShape | internal/config/ssh.go:99-106 | a list of fields reads as a directive exactly when it has two or more; the key is the first field lower-cased, and the value is non-empty, single-spaced and splits back into the other fields |
| Parser.SetFieldIsOverlay | internal/config/ssh.go:122-141 | one field directive changes the open host exactly as the per-field reference `Overlay` does for a one-line block: the field its key names takes the value, and an unknown key changes nothing |
| Parser.RunFromAppend | internal/config/ssh.go:70-143 | reading a file in two parts gives the same state as reading it in one go |
| Parser.StepNames | internal/config/ssh.go:108-121 | one iteration of the line loop adds a host name exactly for a `host` directive, after the names so far, and otherwise leaves the names alone |
| Parser.StepTags | internal/config/ssh.go:79-121 | one iteration adds the labels of a tags comment after the labels held by the hosts and the pending list, and never drops or reorders a label |
| Parser.Parse | internal/config/ssh.go:58-151 | the parsed hosts' names are the `Host` lines' names in file order, and their tags followed by the still pending labels are all the tags labels of the file in order |
| Parser.HostsInDeclarationOrder | internal/config/ssh.go:108-148 | the parsed hosts' names are the names of the `Host` lines, in file order, one host per `Host` line |
| Parser.HostCount | internal/config/ssh.go:108-148 | there are as many hosts as `Host` lines |
| Parser.ListedDeclared | internal/config/ssh.go:108-121 | every listed host was declared by some line of the file that reads as a `host` directive with that name |
| Parser.TagsPartitioned | internal/config/ssh.go:79-121 | the tags of all hosts, in host order, followed by the labels still pending at the end, are every tags label of the file in file order; no label goes to two hosts |
| Parser.HostLineOpensBlock | internal/config/ssh.go:109-121 | a `Host` line closes the open host and opens one with port "22", empty fields and the tags collected since the previous `Host` line; nothing remains pending |
| Parser.LastDirectiveWins | internal/config/ssh.go:122-142 | within a block the last directive for each field wins; the host's name and tags stay, and no host is closed |
| Parser.DirectivesBeforeHostIgnored | internal/config/ssh.go:122-142 | field directives before the first `Host` line have no effect; only tags comments there count |
| Parser.InertLineIgnored | internal/config/ssh.go:73-103 | a blank line, a comment that is not a tags comment, a line with fewer than two fields, or an unknown directive can be removed without changing the hosts or the pending tags |
| Parser.InertRawLineIgnored | internal/config/ssh.go:70-103 | the same holds for a raw line of the file whose reading is inert |
| Parser.DirectiveLine | internal/config/ssh.go:99-106 | an indented keyword followed by a non-empty, single-spaced value reads as the lower-cased keyword and that value, whatever the indentation |
| Parser.KeyCaseInsensitive | internal/config/ssh.go:105-108 | two spellings of a keyword that agree once lower-cased, each followed by the same non-empty, single-spaced value, read the same |
| Parser.KeywordOnlyLine | internal/config/ssh.go:100-103 | a keyword with nothing after it is skipped |
| Block.RenderLayout | internal/config/ssh.go:188-239 | a written block opens with a blank line, then the tags line when there are tags, then the `Host` line and the `HostName` line, and then at most four more lines; no other line starts with `Host `, either as written or once trimmed, so the walk of a later update or delete sees only the one `Host` line |
| Block.PortLineOnlyWhenShown | internal/config/ssh.go:220-225 | a `Port` line is written exactly when the port is set and is not "22" |
| Block.NoProxyJumpLine | internal/config/ssh.go:318-333 | a block written for an update holds no `ProxyJump` line |
| Block.TagsLineReading | internal/config/ssh.go:194-200 | the parser reads the written tags line back as exactly the host's tags |
| Block.HostLineReading | internal/config/ssh.go:202-206 | the parser reads the written `Host` line as a `host` directive with the host's name |
| Block.FieldLineReading | internal/config/ssh.go:208-211 | the parser reads a written field line as the lower-cased keyword and the field's value; a line written for an empty value has one field only and is skipped |
| Block.RenderRun | internal/config/ssh.go:188-239 | reading a written block after any file content closes the open host and opens the written one; it carries the pending tags followed by its own |
| Block.RenderRoundTrip | internal/config/ssh.go:188-239 | parsing a written block on its own gives back exactly the host; an empty port reads as "22", and `ProxyJump` survives only when it was written |
| Block.DefaultPortReadBack | internal/config/ssh.go:220-225 | a host written without a `Port` line reads back with port "22" |
| Block.RenderNoNewline | internal/config/ssh.go:188-239 | no written line of a well-formed host holds a newline, so each line is one line of the file |
| Store.AddHost | internal/config/ssh.go:172-239 | an add fails exactly when the file already declares the name, and it then reports `AlreadyExists`; on success the old text is kept unchanged as a prefix |
| Store.DuplicateRefused | internal/config/ssh.go:172-179 | adding a name the file declares is refused with `AlreadyExists` |
| Store.AppendedLines | internal/config/ssh.go:188-239 | the appended text splits into the old lines, the block's lines after its leading blank line, and an empty last piece; the leading newline ends the old last line |
| Store.SeparatorIgnored | internal/config/ssh.go:188-192 | the blank line that opens a block changes nothing in the reading |
| Store.AppendedRun | internal/config/ssh.go:188-239 | reading the file after an add gives the old file's state with its open host closed, and the new host open |
| Store.AddReadBack | internal/config/ssh.go:153-239 | after an add, the file reads as its old hosts followed by the new host; the new host also takes the labels of a trailing tags comment no host had claimed |
| Store.AddThenLookup | internal/config/ssh.go:153-272 | after an add, looking the name up returns the host as added |
| Splice.HostLineFields | internal/config/ssh.go:340 | a trimmed line that starts with `Host ` has a second field, so the loop's `Fields(line)[1]` is always in range |
| Splice.BodyEnd | internal/config/ssh.go:312-316 | a body runs up to the first blank line or `Host ` line, or to the end of the file |
| Splice.SkipBody | internal/config/ssh.go:314-316 | the inner skip loop stops exactly where the body ends |
| Splice.ScanFlatten | internal/config/ssh.go:302-372 | the walk's pieces, put back together, are the file's lines |
| Splice.ScanWellScanned | internal/config/ssh.go:302-372 | every piece the walk cuts out is a block of the host that runs to the end of its body; no line the walk passes over starts a block of the host |
| Splice.BlockShape | internal/config/ssh.go:306-347 | a block starts with a matching `Host` line, or with a tags comment followed by exactly `Host <name>`; all its further lines are body lines |
| Splice.BlockMeansMatch | internal/config/ssh.go:302-372 | a block found by the walk starts at a line that matches the host |
| Splice.MatchMeansBlock | internal/config/ssh.go:302-372 | a line that matches the host makes the walk find a block |
| Splice.ScanFindsIff | internal/config/ssh.go:302-376 | the walk finds a block exactly when some line of the file starts a block of the host |
| Splice.TaggedHostLine | internal/config/ssh.go:305-341 | for a one-word name, the `Host` line after a matching tags comment also matches on its own |
| Update.UpdateLines | internal/config/ssh.go:297-376 | an update fails with `NotFound` exactly when no line starts a block of the old name |
| Update.UpdateText | internal/config/ssh.go:297-380 | the same, on the file's text |
| Update.UpdateByWalk | internal/config/ssh.go:302-376 | the loop of `UpdateSSHHost` computes exactly the update: the same error, or the same new lines |
| Update.UpdateSplices | internal/config/ssh.go:302-372 | the file splits into passed-over lines and blocks of the old name, each block running to the end of its body; the result keeps the passed-over lines verbatim and in order, and puts the new block in place of every old block |
| Update.ReplaceOrigin | internal/config/ssh.go:318-370 | each line of a replacement is a kept line or a line of the new block |
| Update.UpdateLineOrigin | internal/config/ssh.go:302-372 | every line of the updated file is a line of the old file or a line of the new host's block |
| Update.UpdateWritesNoProxyJump | internal/config/ssh.go:318-364 | every `ProxyJump` line in the updated file was already in the old file |
| Update.UpdateDoublesTags | internal/config/ssh.go:306-308 | when a tags comment and a blank line precede `Host a`, the parser gives the label to `a`, but updating `a` to the host it already reads as keeps the comment, because the walk replaces a tags comment only when `Host a` is the very next line; the new block writes the label again, and `a` reads back with it twice |
| Update.UpdateTextLines | internal/config/ssh.go:379 | the written text splits back into exactly the updated lines |
| Delete.DeleteLines | internal/config/ssh.go:406-465 | a delete fails with `NotFound` exactly when no line starts a block of the name |
| Delete.DeleteText | internal/config/ssh.go:406-469 | the same, on the file's text |
| Delete.PruneAfterBlock | internal/config/ssh.go:429-432 | after a block the walk drops the next line if it is blank, and otherwise goes on as before; lines 450-453 do the same after a block without tags |
| Delete.DeleteByWalk | internal/config/ssh.go:411-465 | the loop of `DeleteSSHHost` computes exactly the delete: the same error, or the same remaining lines |
| Delete.DeleteSplices | internal/config/ssh.go:411-461 | the file splits into passed-over lines and blocks of the name; the result keeps only the passed-over lines, minus one blank line after each block |
| Delete.PruneSubseq | internal/config/ssh.go:411-461 | pruning only leaves lines out |
| Delete.DeleteSubsequence | internal/config/ssh.go:411-461 | the remaining file is the old file with some lines left out, in order |
| Delete.PruneKeepsText | internal/config/ssh.go:429-460 | apart from blank lines, pruning keeps exactly the passed-over lines |
| Delete.DeleteKeepsOtherLines | internal/config/ssh.go:458-460 | apart from blank lines, the remaining file is exactly the lines outside the host's blocks, in order |
| Delete.PruneDrops | internal/config/ssh.go:422-453 | pruning drops every line of every block, and at most one more line per block |
| Delete.DeleteCount | internal/config/ssh.go:422-453 | the delete removes every line of the host's blocks, and at most one more line per block |
| Delete.DeleteLeavesNoHostLine | internal/config/ssh.go:439-461 | no `Host` line naming the host remains |
| Delete.DeleteKeepsInputLines | internal/config/ssh.go:458-460 | every line left after a delete is a line of the old file |
| Delete.DeleteUnlists | internal/config/ssh.go:384-470 | after a delete of a one-word name the parser no longer lists the host, provided every line the parser reads as a `host` directive is written `Host ` with a space |
| Delete.DeleteTwiceNotFound | internal/config/ssh.go:411-465 | for a one-word name, a second delete reports `NotFound` |
| Delete.DeleteTextLines | internal/config/ssh.go:468 | when some lines remain, the written text splits back into exactly those lines |
| Delete.LowerCaseHostNotDeleted | internal/config/ssh.go:439 | for every one-word name, a host declared by a lower-case `host` line is listed, yet deleting it reports `NotFound`: the parser matches the keyword in any case, the walk only `Host ` as written |
| Delete.TabHostNotDeleted | internal/config/ssh.go:439 | for every one-word name, a host declared as `Host`, a tab and the name is listed, yet deleting it reports `NotFound`: the parser splits fields at any whitespace, the walk needs `Host` and a space |
| Delete.DeleteDropsNextTags | internal/config/ssh.go:446-448 | when a tags comment directly follows host `a` and precedes host `b`, the parser gives its label to `b`, but deleting `a` removes the comment with `a`'s body, and `b` reads back without the label |
| Delete.DeleteMovesTags | internal/config/ssh.go:415-417 | when a tags comment and a blank line precede `Host a`, followed by a blank line and `Host b`, the parser gives the label to `a`; deleting `a` keeps the comment and one blank line, and `b` then reads back with `a`'s label |

## Left out

- File I/O is not modelled. This covers opening, reading, appending and
  writing the config file, `os.UserHomeDir`, `ParseSSHConfig`'s path
  building, and the error returns of those calls. Every operation works on
  the file's text or lines instead.
- `backupConfig` is left out: it copies the file and changes nothing the
  store computes.
- `configMutex` is left out: the model has no concurrency.
- A missing config file is left out. In `ssh.go` it makes `HostExists`
  fail with an I/O error.
- `bufio.Scanner` is replaced by splitting at `\n`. The scanner also drops a
  trailing `\r`, which trimming drops anyway. It skips the empty piece after
  a final newline, which is blank and so has no effect on parsing. Its
  64 KiB line limit and the error it then reports are left out.
- Text.IsSpace: only the six ASCII whitespace characters are whitespace.
  `strings.TrimSpace` and `strings.Fields` also treat Unicode spaces as
  whitespace.
- Text.ToLower: lower-cases ASCII letters only. `strings.ToLower` handles all
  of Unicode.
- Block.RenderRoundTrip: proved only for well-formed hosts. A well-formed
  host has a non-empty name. Its field values have no leading or trailing
  whitespace and single spaces between words. Its tags are non-empty and
  trimmed and hold no comma or newline: an empty tag is written as
  `# Tags: ` and reads back as no label. A value outside that form does not read back as
  written, because the parser re-joins fields with single spaces.
- Store.AddReadBack, Store.AddThenLookup and Update.UpdateTextLines: stated
  for well-formed hosts, for the same reason.
- Delete.DeleteTextLines: says nothing when no line remains. Joining an
  empty list gives the empty text, and that splits into one empty line.
- Delete.DeleteUnlists: stated only for files whose `Host` lines are all
  written `Host ` with a space. The parser also accepts `host`, `HOST` or a
  tab after the keyword, and the walk then finds nothing to delete, as
  Delete.LowerCaseHostNotDeleted and Delete.TabHostNotDeleted show.
- Delete.DeleteLines: does not promise that the other hosts keep their
  fields. The walk ends a body only at a blank line or a `Host ` line, so a
  tags comment written directly after the body goes with the deleted block,
  and the next host loses its tags (Delete.DeleteDropsNextTags). The store
  itself can write that layout: `AddSSHHost` starts its block with a
  newline, which is a blank line only when the old text already ended with
  a newline (Store.AppendedLines). Added after text without a final
  newline, the new host's tags comment directly follows the previous body.
  The parser also carries labels across blank lines, but the walk takes a
  tags comment into a block only when the very next line is `Host <name>`.
  So a tags comment separated from its host by a blank line stays behind
  when that host is deleted, and the next host picks up its label
  (Delete.DeleteMovesTags).
- Update.UpdateLines: does not promise that the updated host reads back as
  written, nor that the other hosts keep their fields. The other hosts can
  lose tags exactly as for a delete, because the walk also replaces a tags
  comment written directly after the old body. The updated host reads back
  differently for two reasons. The new block has no `ProxyJump` line
  (Block.NoProxyJumpLine). A tags comment separated from the `Host` line by
  a blank line is kept, and its labels are read again before the new
  block's own: an update that changes nothing doubles the host's labels
  (Update.UpdateDoublesTags).
- Delete.DeleteTwiceNotFound: stated for one-word names only. A name with
  spaces can still match through a tags comment followed by
  `Host <name>`.

=== FILE: block.dfy ===
/** The host block the store writes: `AddSSHHost` appends it to the file,
    and `UpdateSSHHost` splices the same lines, less the `ProxyJump` line,
    in place of the old block. The lemmas here show how the parser reads
    such a block back. */
module Block {
  import opened Results
  import opened Text
  import opened Hosts
  import opened Parser

  /** The indentation of the field lines the store writes. */
  const Indent: string := "    "

  function TagsLine(tags: seq<string>): string {
    "# Tags: " + Join(tags, ", ")
  }

  function HostLine(name: string): string {
    "Host " + name
  }

  function FieldLine(keyword: string, value: string): string {
    Indent + keyword + " " + value
  }

  /** A field line that is written only when the field is set. */
  function OptionalField(keyword: string, value: string): seq<string> {
    if value != "" then [FieldLine(keyword, value)] else []
  }

  /** The store writes a `Port` line only for a port other than the default. */
  predicate ShowsPort(port: string) {
    port != "" && port != "22"
  }

  /** The lines of a host block, starting with the blank separator line. The
      `ProxyJump` line is written by `AddSSHHost` only (`withProxyJump`). */
  function Render(h: Host, withProxyJump: bool): seq<string> {
    HeaderLines(h.tags) + OpenLines(h) + TailLines(h, withProxyJump)
  }

  /** The blank separator line and, when there are tags, the tags comment. */
  function HeaderLines(tags: seq<string>): seq<string> {
    [""] + (if tags != [] then [TagsLine(tags)] else [])
  }

  /** The `Host` line and the `HostName` line, which are always written. */
  function OpenLines(h: Host): seq<string> {
    [HostLine(h.name), FieldLine("HostName", h.hostname)]
  }

  /** The optional field lines, in the order the store writes them. */
  function TailLines(h: Host, withProxyJump: bool): seq<string> {
    UserPortLines(h) + IdentityProxyLines(h, withProxyJump)
  }

  function UserPortLines(h: Host): seq<string> {
    OptionalField("User", h.user) + PortLines(h.port)
  }

  function PortLines(port: string): seq<string> {
    if ShowsPort(port) then [FieldLine("Port", port)] else []
  }

  function IdentityProxyLines(h: Host, withProxyJump: bool): seq<string> {
    OptionalField("IdentityFile", h.identity) + ProxyLines(h, withProxyJump)
  }

  function ProxyLines(h: Host, withProxyJump: bool): seq<string> {
    if withProxyJump then OptionalField("ProxyJump", h.proxyJump) else []
  }

  /** Index of the `Host` line in a rendered block. */
  function HostLineIndex(h: Host): nat {
    if h.tags != [] then 2 else 1
  }

  // ---------------------------------------------------------------------
  // Shape of a rendered block

  /** A rendered block is a blank line, the tags comment when there are tags,
      the `Host` line, the `HostName` line, and then one line per optional
      field that is set; only the `Host` line starts with `Host `. */
  lemma RenderLayout(h: Host, withProxyJump: bool)
    ensures var r := Render(h, withProxyJump);
      var k := HostLineIndex(h);
      && k + 2 <= |r| <= k + 6
      && r[0] == ""
      && (h.tags != [] ==> r[1] == TagsLine(h.tags))
      && r[k] == HostLine(h.name)
      && r[k + 1] == FieldLine("HostName", h.hostname)
      && (forall i :: 0 <= i < |r| && i != k ==> !HasPrefix(r[i], "Host "))
      && (forall i :: 0 <= i < |r| && i != k ==> !HasPrefix(Trim(r[i]), "Host "))
  {
    var hd := HeaderLines(h.tags);
    var tl := TailLines(h, withProxyJump);
    var r := Render(h, withProxyJump);
    var k := HostLineIndex(h);
    assert |hd| == k;
    TailIndented(h, withProxyJump);
    TailNotHostLines(h, withProxyJump);
    FieldNotHostLine("HostName", h.hostname);
    forall i | 0 <= i < |r| && i != k
      ensures !HasPrefix(r[i], "Host ")
      ensures !HasPrefix(Trim(r[i]), "Host ")
    {
      if i > k + 1 {
        assert r[i] == tl[i - k - 2];
      } else if i == 1 && k == 2 {
        assert r[i] == TagsLine(h.tags);
        TagsLineNotHostLine(h.tags);
      } else if i == k + 1 {
        assert r[i][0] == ' ';
      } else {
        assert r[i] == "";
        assert Trim("") == "";
      }
    }
  }

  /** No line of `ls` starts with `Host ` once trimmed. */
  predicate NotHostLines(ls: seq<string>) {
    forall i :: 0 <= i < |ls| ==> !HasPrefix(Trim(ls[i]), "Host ")
  }

  /** A field line, trimmed, starts with its keyword, so it is not a `Host`
      line unless the keyword is `Host` itself. */
  lemma FieldNotHostLine(keyword: string, value: string)
    requires IsToken(keyword) && (keyword[0] != 'H' || |keyword| >= 5)
    ensures !HasPrefix(Trim(FieldLine(keyword, value)), "Host ")
  {
    assert FieldLine(keyword, value) == Indent + keyword + (" " + value);
    TrimKeepsToken(Indent, keyword, " " + value);
    var t := Trim(FieldLine(keyword, value));
    if |keyword| >= 5 {
      assert t[4] == keyword[4];
    } else {
      assert t[0] == keyword[0];
    }
  }

  lemma OptionalNotHostLines(keyword: string, value: string)
    requires IsToken(keyword) && (keyword[0] != 'H' || |keyword| >= 5)
    ensures NotHostLines(OptionalField(keyword, value))
  {
    if value != "" {
      FieldNotHostLine(keyword, value);
    }
  }

  lemma NotHostLinesAppend(a: seq<string>, b: seq<string>)
    requires NotHostLines(a) && NotHostLines(b)
    ensures NotHostLines(a + b)
  {
    assert forall i :: 0 <= i < |a + b| ==> (a + b)[i] == if i < |a| then a[i] else b[i - |a|];
  }

  /** No optional field line is a `Host` line. */
  lemma TailNotHostLines(h: Host, withProxyJump: bool)
    ensures NotHostLines(TailLines(h, withProxyJump))
  {
    OptionalNotHostLines("User", h.user);
    if ShowsPort(h.port) {
      FieldNotHostLine("Port", h.port);
    }
    NotHostLinesAppend(OptionalField("User", h.user), PortLines(h.port));
    OptionalNotHostLines("IdentityFile", h.identity);
    OptionalNotHostLines("ProxyJump", h.proxyJump);
    NotHostLinesAppend(OptionalField("IdentityFile", h.identity), ProxyLines(h, withProxyJump));
    NotHostLinesAppend(UserPortLines(h), IdentityProxyLines(h, withProxyJump));
  }

  /** The tags comment starts with `#` once trimmed. */
  lemma TagsLineNotHostLine(tags: seq<string>)
    ensures !HasPrefix(Trim(TagsLine(tags)), "Host ")
  {
    var s := TagsLine(tags);
    assert s == "" + "#" + s[1..];
    TrimKeepsToken("", "#", s[1..]);
  }

  /** Every optional field line is indented, and there are at most four. */
  lemma TailIndented(h: Host, withProxyJump: bool)
    ensures |TailLines(h, withProxyJump)| <= 4
    ensures forall i :: 0 <= i < |TailLines(h, withProxyJump)| ==> |TailLines(h, withProxyJump)[i]| > 0 && TailLines(h, withProxyJump)[i][0] == ' '
  {
  }

  /** The `Port` line is written exactly when the port is neither empty nor
      the default "22". */
  lemma PortLineOnlyWhenShown(h: Host, withProxyJump: bool)
    ensures FieldLine("Port", h.port) in Render(h, withProxyJump) <==> ShowsPort(h.port)
  {
    var r := Render(h, withProxyJump);
    var p := FieldLine("Port", h.port);
    if !ShowsPort(h.port) {
      forall i | 0 <= i < |r|
        ensures r[i] != p
      {
        assert p[4] == 'P' && p[5] == 'o';
        if |r[i]| > 5 && r[i][4] == 'P' {
          assert r[i][5] == 'r';
        }
      }
    }
  }

  /** The block `UpdateSSHHost` writes has no `ProxyJump` line. */
  lemma NoProxyJumpLine(h: Host)
    ensures forall i :: 0 <= i < |Render(h, false)| ==> !HasPrefix(Render(h, false)[i], Indent + "ProxyJump ")
  {
    var r := Render(h, false);
    var pj := Indent + "ProxyJump ";
    assert pj[4] == 'P' && pj[5] == 'r';
    forall i | 0 <= i < |r|
      ensures !HasPrefix(r[i], pj)
    {
      if |r[i]| > 5 && r[i][4] == 'P' {
        assert r[i][5] == 'o';
      }
    }
  }

  // ---------------------------------------------------------------------
  // Reading a rendered block back

  /** A tag the parser gives back unchanged: non-empty, trimmed, with no
      comma (the separator) and no newline. */
  predicate ValidTag(t: string) {
    t != "" && IsTrimmed(t) && ',' !in t && '\n' !in t
  }

  /** A host whose block reads back as the same host: a non-empty name and
      field values that are single-spaced runs of fields, and valid tags. */
  predicate WellFormed(h: Host) {
    && h.name != "" && Canonical(h.name)
    && Canonical(h.hostname) && Canonical(h.user) && Canonical(h.port)
    && Canonical(h.identity) && Canonical(h.proxyJump)
    && forall k :: 0 <= k < |h.tags| ==> ValidTag(h.tags[k])
  }

  /** The host the parser makes of a rendered block, given the tags pending
      before it: the port defaults to "22", `ProxyJump` is only kept when it
      was written, and the block's tags follow the pending ones. */
  function Parsed(h: Host, pending: seq<string>, withProxyJump: bool): Host {
    Host(h.name, h.hostname, h.user, if h.port == "" then "22" else h.port,
         h.identity, if withProxyJump then h.proxyJump else "", pending + h.tags)
  }

  lemma LowerHost()
    ensures ToLower("Host") == "host"
  {
  }

  lemma LowerHostName()
    ensures ToLower("HostName") == "hostname"
  {
  }

  lemma LowerUser()
    ensures ToLower("User") == "user"
  {
  }

  lemma LowerPort()
    ensures ToLower("Port") == "port"
  {
  }

  lemma LowerIdentityFile()
    ensures ToLower("IdentityFile") == "identityfile"
  {
  }

  lemma LowerProxyJump()
    ensures ToLower("ProxyJump") == "proxyjump"
  {
  }

  lemma LexSingle(raw: string)
    ensures Lex([raw]) == [Classify(raw)]
  {
  }

  lemma BlankLineReading()
    ensures Classify("") == Blank
  {
  }

  /** A padded tag is one comma-free piece that trims to the tag. */
  lemma PaddedTag(pre: string, t: string)
    requires AllSpace(pre) && ValidTag(t)
    ensures Split(pre + t, ',') == [pre + t]
    ensures Labels([pre + t]) == [t]
  {
    assert ',' !in pre + t by {
      assert forall i :: 0 <= i < |pre + t| ==> (pre + t)[i] == if i < |pre| then pre[i] else t[i - |pre|];
    }
    SplitNoSep(pre + t, ',');
    assert Trim(pre + t) == t by {
      TrimPadded(pre, t, "");
      assert pre + t + "" == pre + t;
    }
  }

  /** The first comma of joined tags ends the first piece. */
  lemma SplitJoinedTags(pre: string, tags: seq<string>)
    requires AllSpace(pre) && |tags| > 1 && ValidTag(tags[0])
    ensures Split(pre + Join(tags, ", "), ',') == [pre + tags[0]] + Split(" " + Join(tags[1..], ", "), ',')
  {
    var t := tags[0];
    var rest := Join(tags[1..], ", ");
    assert pre + Join(tags, ", ") == (pre + t) + [','] + (" " + rest);
    SplitConcat(pre + t, " " + rest, ',');
    PaddedTag(pre, t);
  }

  /** Splitting padded tags joined by ", " at the commas and trimming the
      pieces gives the tags back. */
  lemma {:induction false} LabelsOfJoinedTags(pre: string, tags: seq<string>)
    requires AllSpace(pre) && tags != []
    requires forall k :: 0 <= k < |tags| ==> ValidTag(tags[k])
    ensures Labels(Split(pre + Join(tags, ", "), ',')) == tags
    decreases |tags|
  {
    if |tags| == 1 {
      assert pre + Join(tags, ", ") == pre + tags[0];
      PaddedTag(pre, tags[0]);
    } else {
      var rest := Join(tags[1..], ", ");
      SplitJoinedTags(pre, tags);
      PaddedTag(pre, tags[0]);
      LabelsOfJoinedTags(" ", tags[1..]);
      LabelsCons(pre + tags[0], Split(" " + rest, ','));
      assert tags == [tags[0]] + tags[1..];
    }
  }

  lemma LabelsCons(x: string, rest: seq<string>)
    ensures Labels([x] + rest) == Labels([x]) + Labels(rest)
  {
    assert ([x] + rest)[0] == x;
    assert ([x] + rest)[1..] == rest;
    assert [x][1..] == [];
  }

  /** Tags joined by ", " form a non-empty trimmed text. */
  lemma JoinedTagsTrimmed(tags: seq<string>)
    requires tags != []
    requires forall k :: 0 <= k < |tags| ==> ValidTag(tags[k])
    ensures Join(tags, ", ") != [] && IsTrimmed(Join(tags, ", "))
  {
    JoinEnds(tags, ", ");
  }

  lemma TagsLineSplit(tags: seq<string>)
    ensures TagsLine(tags) == TagsPrefix + (" " + Join(tags, ", "))
  {
  }

  /** A tags comment the store writes is already trimmed. */
  lemma TagsLineTrimmed(tags: seq<string>)
    requires tags != []
    requires forall k :: 0 <= k < |tags| ==> ValidTag(tags[k])
    ensures Trim(TagsLine(tags)) == TagsLine(tags)
  {
    var j := Join(tags, ", ");
    var line := TagsLine(tags);
    JoinedTagsTrimmed(tags);
    assert line[0] == '#' && line[|line| - 1] == j[|j| - 1];
    TrimOfTrimmed(line);
  }

  /** The text after the tags prefix of a tags comment, once trimmed. */
  lemma TagsLineRest(tags: seq<string>)
    requires tags != []
    requires forall k :: 0 <= k < |tags| ==> ValidTag(tags[k])
    ensures HasPrefix(TagsLine(tags), TagsPrefix)
    ensures Trim(TrimPrefix(TagsLine(tags), TagsPrefix)) == Join(tags, ", ")
  {
    var j := Join(tags, ", ");
    TagsLineSplit(tags);
    assert TrimPrefix(TagsLine(tags), TagsPrefix) == " " + j;
    JoinedTagsTrimmed(tags);
    TrimPadded(" ", j, "");
    assert " " + j + "" == " " + j;
  }

  lemma CommentLabelsOfTags(tags: seq<string>)
    requires tags != []
    requires forall k :: 0 <= k < |tags| ==> ValidTag(tags[k])
    ensures CommentLabels(TagsLine(tags)) == tags
  {
    TagsLineRest(tags);
    JoinedTagsTrimmed(tags);
    LabelsOfJoinedTags("", tags);
    assert "" + Join(tags, ", ") == Join(tags, ", ");
  }

  lemma TagsLineHeader(tags: seq<string>)
    requires tags != []
    requires forall k :: 0 <= k < |tags| ==> ValidTag(tags[k])
    ensures Trim(TagsLine(tags)) == TagsLine(tags) && HasPrefix(TagsLine(tags), TagsPrefix)
  {
    TagsLineTrimmed(tags);
    TagsLineSplit(tags);
  }

  lemma TagsLineClassified(tags: seq<string>)
    requires tags != []
    requires forall k :: 0 <= k < |tags| ==> ValidTag(tags[k])
    ensures Classify(TagsLine(tags)) == TagsComment(CommentLabels(TagsLine(tags)))
  {
    TagsLineHeader(tags);
    TagsCommentLine(TagsLine(tags));
  }

  /** The tags comment of a block reads as exactly its tags. */
  lemma TagsLineReading(tags: seq<string>)
    requires tags != []
    requires forall k :: 0 <= k < |tags| ==> ValidTag(tags[k])
    ensures Classify(TagsLine(tags)) == TagsComment(tags)
  {
    TagsLineClassified(tags);
    CommentLabelsOfTags(tags);
  }

  /** The `Host` line of a block declares its name. */
  lemma HostLineReading(name: string)
    requires name != "" && Canonical(name)
    ensures Classify(HostLine(name)) == Directive("host", name)
  {
    DirectiveLine("", "Host", name);
    assert "" + "Host" + " " + name == HostLine(name);
    LowerHost();
  }

  /** A field line reads as a directive when the value is set and is skipped
      when it is empty. */
  lemma FieldLineReading(keyword: string, value: string)
    requires IsToken(keyword) && keyword[0] != '#' && Canonical(value)
    ensures Classify(FieldLine(keyword, value))
         == if value != "" then Directive(ToLower(keyword), value) else Short
  {
    if value != "" {
      SetFieldLine(keyword, value);
    } else {
      EmptyFieldLine(keyword);
    }
  }

  lemma SetFieldLine(keyword: string, value: string)
    requires IsToken(keyword) && keyword[0] != '#' && Canonical(value) && value != ""
    ensures Classify(FieldLine(keyword, value)) == Directive(ToLower(keyword), value)
  {
    DirectiveLine(Indent, keyword, value);
  }

  lemma EmptyFieldLine(keyword: string)
    requires IsToken(keyword) && keyword[0] != '#'
    ensures Classify(FieldLine(keyword, "")) == Short
  {
    assert FieldLine(keyword, "") == Indent + keyword + " ";
    KeywordOnlyLine(Indent, keyword);
  }

  // ---------------------------------------------------------------------
  // The readings of a rendered block

  function FieldReading(key: string, value: string): Line {
    if value != "" then Directive(key, value) else Short
  }

  function OptionalReading(key: string, value: string): seq<Line> {
    if value != "" then [Directive(key, value)] else []
  }

  /** The parser's reading of each line of a rendered block, part by part. */
  function Readings(h: Host, withProxyJump: bool): seq<Line> {
    HeaderReadings(h.tags) + OpenReadings(h) + TailReadings(h, withProxyJump)
  }

  function HeaderReadings(tags: seq<string>): seq<Line> {
    [Blank] + (if tags != [] then [TagsComment(tags)] else [])
  }

  function OpenReadings(h: Host): seq<Line> {
    [Directive("host", h.name), FieldReading("hostname", h.hostname)]
  }

  function TailReadings(h: Host, withProxyJump: bool): seq<Line> {
    UserPortReadings(h) + IdentityProxyReadings(h, withProxyJump)
  }

  function UserPortReadings(h: Host): seq<Line> {
    OptionalReading("user", h.user) + PortReadings(h.port)
  }

  function PortReadings(port: string): seq<Line> {
    if ShowsPort(port) then [Directive("port", port)] else []
  }

  function IdentityProxyReadings(h: Host, withProxyJump: bool): seq<Line> {
    OptionalReading("identityfile", h.identity) + ProxyReadings(h, withProxyJump)
  }

  function ProxyReadings(h: Host, withProxyJump: bool): seq<Line> {
    if withProxyJump then OptionalReading("proxyjump", h.proxyJump) else []
  }

  lemma LexTagsPart(tags: seq<string>)
    requires forall k :: 0 <= k < |tags| ==> ValidTag(tags[k])
    ensures Lex(if tags != [] then [TagsLine(tags)] else []) == if tags != [] then [TagsComment(tags)] else []
  {
    if tags != [] {
      LexSingle(TagsLine(tags));
      TagsLineReading(tags);
    }
  }

  lemma LexHeader(tags: seq<string>)
    requires forall k :: 0 <= k < |tags| ==> ValidTag(tags[k])
    ensures Lex(HeaderLines(tags)) == HeaderReadings(tags)
  {
    LexAppend([""], if tags != [] then [TagsLine(tags)] else []);
    LexSingle("");
    BlankLineReading();
    LexTagsPart(tags);
  }

  lemma LexOpen(h: Host)
    requires WellFormed(h)
    ensures Lex(OpenLines(h)) == OpenReadings(h)
  {
    HostLineReading(h.name);
    HostNameLineReading(h.hostname);
    assert OpenLines(h)[1..] == [FieldLine("HostName", h.hostname)];
  }

  lemma HostNameLineReading(hostname: string)
    requires Canonical(hostname)
    ensures Classify(FieldLine("HostName", hostname)) == FieldReading("hostname", hostname)
  {
    LowerHostName();
    FieldLineReading("HostName", hostname);
  }

  lemma LexOptional(keyword: string, key: string, value: string)
    requires IsToken(keyword) && keyword[0] != '#' && ToLower(keyword) == key
    requires Canonical(value)
    ensures Lex(OptionalField(keyword, value)) == OptionalReading(key, value)
  {
    if value != "" {
      LexSingle(FieldLine(keyword, value));
      SetFieldLine(keyword, value);
    }
  }

  lemma LexPort(port: string)
    requires Canonical(port)
    ensures Lex(PortLines(port)) == PortReadings(port)
  {
    if ShowsPort(port) {
      LexSingle(FieldLine("Port", port));
      LowerPort();
      SetFieldLine("Port", port);
    }
  }

  lemma LexUser(user: string)
    requires Canonical(user)
    ensures Lex(OptionalField("User", user)) == OptionalReading("user", user)
  {
    LowerUser();
    LexOptional("User", "user", user);
  }

  lemma LexUserPort(h: Host)
    requires WellFormed(h)
    ensures Lex(UserPortLines(h)) == UserPortReadings(h)
  {
    LexAppend(OptionalField("User", h.user), PortLines(h.port));
    LexUser(h.user);
    LexPort(h.port);
  }

  lemma LexIdentity(identity: string)
    requires Canonical(identity)
    ensures Lex(OptionalField("IdentityFile", identity)) == OptionalReading("identityfile", identity)
  {
    LowerIdentityFile();
    LexOptional("IdentityFile", "identityfile", identity);
  }

  lemma LexProxy(h: Host, withProxyJump: bool)
    requires WellFormed(h)
    ensures Lex(ProxyLines(h, withProxyJump)) == ProxyReadings(h, withProxyJump)
  {
    if withProxyJump {
      LowerProxyJump();
      LexOptional("ProxyJump", "proxyjump", h.proxyJump);
    }
  }

  lemma LexIdentityProxy(h: Host, withProxyJump: bool)
    requires WellFormed(h)
    ensures Lex(IdentityProxyLines(h, withProxyJump)) == IdentityProxyReadings(h, withProxyJump)
  {
    LexAppend(OptionalField("IdentityFile", h.identity), ProxyLines(h, withProxyJump));
    LexIdentity(h.identity);
    LexProxy(h, withProxyJump);
  }

  lemma LexTail(h: Host, withProxyJump: bool)
    requires WellFormed(h)
    ensures Lex(TailLines(h, withProxyJump)) == TailReadings(h, withProxyJump)
  {
    LexAppend(UserPortLines(h), IdentityProxyLines(h, withProxyJump));
    LexUserPort(h);
    LexIdentityProxy(h, withProxyJump);
  }

  lemma LexHeadOpen(h: Host)
    requires WellFormed(h)
    ensures Lex(HeaderLines(h.tags) + OpenLines(h)) == HeaderReadings(h.tags) + OpenReadings(h)
  {
    LexAppend(HeaderLines(h.tags), OpenLines(h));
    LexHeader(h.tags);
    LexOpen(h);
  }

  /** Each line of a rendered block of a well-formed host reads as the
      corresponding entry of `Readings`. */
  lemma LexRender(h: Host, withProxyJump: bool)
    requires WellFormed(h)
    ensures Lex(Render(h, withProxyJump)) == Readings(h, withProxyJump)
  {
    LexAppend(HeaderLines(h.tags) + OpenLines(h), TailLines(h, withProxyJump));
    LexHeadOpen(h);
    LexTail(h, withProxyJump);
  }

  // ---------------------------------------------------------------------
  // Folding the readings

  /** The header of a block only adds its tags to the pending ones. */
  lemma HeaderRun(st: State, tags: seq<string>)
    ensures RunFrom(st, HeaderReadings(tags)) == st.(pending := st.pending + tags)
  {
    var t := if tags != [] then [TagsComment(tags)] else [];
    RunFromAppend(st, [Blank], t);
    RunOne(st, Blank);
    if tags != [] {
      RunOne(st, TagsComment(tags));
    } else {
      assert st.pending + tags == st.pending;
    }
  }

  /** The `Host` line closes the open host and opens the block's host with
      the pending tags; the `HostName` line sets its host name. */
  lemma OpenRun(st: State, h: Host)
    ensures RunFrom(st, OpenReadings(h))
         == State(Closed(st), Some(NewHost(h.name, st.pending).(hostname := h.hostname)), [])
  {
    RunPair(st, Directive("host", h.name), FieldReading("hostname", h.hostname));
  }

  /** The user and port lines set those fields of a fresh host. */
  lemma UserPortRun(st: State, h: Host)
    requires st.current.Some? && st.current.value.user == "" && st.current.value.port == "22"
    ensures RunFrom(st, UserPortReadings(h))
         == st.(current := Some(st.current.value.(user := h.user, port := if h.port == "" then "22" else h.port)))
  {
    var u := OptionalReading("user", h.user);
    RunFromAppend(st, u, PortReadings(h.port));
    var s1 := RunFrom(st, u);
    if h.user != "" {
      RunOne(st, Directive("user", h.user));
    }
    if ShowsPort(h.port) {
      RunOne(s1, Directive("port", h.port));
    }
  }

  /** The identity and proxy lines set those fields of a fresh host. */
  lemma IdentityProxyRun(st: State, h: Host, withProxyJump: bool)
    requires st.current.Some? && st.current.value.identity == "" && st.current.value.proxyJump == ""
    ensures RunFrom(st, IdentityProxyReadings(h, withProxyJump))
         == st.(current := Some(st.current.value.(identity := h.identity,
                                                  proxyJump := if withProxyJump then h.proxyJump else "")))
  {
    var i := OptionalReading("identityfile", h.identity);
    RunFromAppend(st, i, ProxyReadings(h, withProxyJump));
    var s1 := RunFrom(st, i);
    if h.identity != "" {
      RunOne(st, Directive("identityfile", h.identity));
    }
    if withProxyJump && h.proxyJump != "" {
      RunOne(s1, Directive("proxyjump", h.proxyJump));
    }
  }

  /** The field lines of a block fill in the fields that were written. */
  lemma TailRun(st: State, h: Host, withProxyJump: bool, tags: seq<string>)
    requires st.current == Some(NewHost(h.name, tags).(hostname := h.hostname))
    ensures RunFrom(st, TailReadings(h, withProxyJump))
         == st.(current := Some(Parsed(h, tags, withProxyJump).(tags := tags)))
  {
    RunFromAppend(st, UserPortReadings(h), IdentityProxyReadings(h, withProxyJump));
    UserPortRun(st, h);
    IdentityProxyRun(RunFrom(st, UserPortReadings(h)), h, withProxyJump);
  }

  /** The header and the `Host` and `HostName` lines of a block. */
  lemma HeadOpenRun(st: State, h: Host)
    ensures RunFrom(st, HeaderReadings(h.tags) + OpenReadings(h))
         == State(Closed(st), Some(NewHost(h.name, st.pending + h.tags).(hostname := h.hostname)), [])
  {
    RunFromAppend(st, HeaderReadings(h.tags), OpenReadings(h));
    HeaderRun(st, h.tags);
    OpenRun(st.(pending := st.pending + h.tags), h);
  }

  /** Folding the readings of a block closes the host that was open, leaves
      the block's host open with the written fields, and hands it the
      pending tags followed by its own; nothing stays pending. */
  lemma ReadingsRun(st: State, h: Host, withProxyJump: bool)
    ensures RunFrom(st, Readings(h, withProxyJump))
         == State(Closed(st), Some(Parsed(h, st.pending, withProxyJump)), [])
  {
    var ho := HeaderReadings(h.tags) + OpenReadings(h);
    RunFromAppend(st, ho, TailReadings(h, withProxyJump));
    HeadOpenRun(st, h);
    TailRun(RunFrom(st, ho), h, withProxyJump, st.pending + h.tags);
  }

  /** How the parser folds a rendered block of a well-formed host. */
  lemma RenderRun(st: State, h: Host, withProxyJump: bool)
    requires WellFormed(h)
    ensures RunFrom(st, Lex(Render(h, withProxyJump)))
         == State(Closed(st), Some(Parsed(h, st.pending, withProxyJump)), [])
  {
    LexRender(h, withProxyJump);
    ReadingsRun(st, h, withProxyJump);
  }

  /** Parsing a rendered block on its own gives back the host, with the
      port defaulted and `ProxyJump` present only when written. */
  lemma RenderRoundTrip(h: Host, withProxyJump: bool)
    requires WellFormed(h)
    ensures Parse(Render(h, withProxyJump)) == [Parsed(h, [], withProxyJump)]
  {
    RenderRun(Start, h, withProxyJump);
  }

  /** A host rendered without a `Port` line reads back with port "22". */
  lemma DefaultPortReadBack(h: Host, withProxyJump: bool)
    requires WellFormed(h) && !ShowsPort(h.port)
    ensures |Parse(Render(h, withProxyJump))| == 1 && Parse(Render(h, withProxyJump))[0].port == "22"
  {
    RenderRoundTrip(h, withProxyJump);
  }

  /** No line of a rendered block of a well-formed host holds a newline. */
  lemma RenderNoNewline(h: Host, withProxyJump: bool)
    requires WellFormed(h)
    ensures Avoids(Render(h, withProxyJump), '\n')
  {
    HeaderNoNewline(h.tags);
    OpenNoNewline(h);
    UserPortNoNewline(h);
    IdentityProxyNoNewline(h, withProxyJump);
    AvoidsAppend(HeaderLines(h.tags), OpenLines(h), '\n');
    AvoidsAppend(UserPortLines(h), IdentityProxyLines(h, withProxyJump), '\n');
    AvoidsAppend(HeaderLines(h.tags) + OpenLines(h), TailLines(h, withProxyJump), '\n');
  }

  lemma HeaderNoNewline(tags: seq<string>)
    requires forall k :: 0 <= k < |tags| ==> ValidTag(tags[k])
    ensures Avoids(HeaderLines(tags), '\n')
  {
    TagsNoNewline(tags);
  }

  lemma OpenNoNewline(h: Host)
    requires WellFormed(h)
    ensures Avoids(OpenLines(h), '\n')
  {
    FieldNoNewline("HostName", h.hostname);
    CanonicalShape(h.name);
    assert '\n' !in HostLine(h.name) by {
      assert forall i :: 5 <= i < |HostLine(h.name)| ==> HostLine(h.name)[i] == h.name[i - 5];
    }
  }

  lemma UserPortNoNewline(h: Host)
    requires WellFormed(h)
    ensures Avoids(UserPortLines(h), '\n')
  {
    FieldNoNewline("User", h.user);
    FieldNoNewline("Port", h.port);
  }

  lemma IdentityProxyNoNewline(h: Host, withProxyJump: bool)
    requires WellFormed(h)
    ensures Avoids(IdentityProxyLines(h, withProxyJump), '\n')
  {
    FieldNoNewline("IdentityFile", h.identity);
    FieldNoNewline("ProxyJump", h.proxyJump);
  }

  lemma TagsNoNewline(tags: seq<string>)
    requires forall k :: 0 <= k < |tags| ==> ValidTag(tags[k])
    ensures '\n' !in TagsLine(tags)
  {
    JoinAvoids(tags, ", ", '\n');
    var j := Join(tags, ", ");
    assert forall i :: 8 <= i < |TagsLine(tags)| ==> TagsLine(tags)[i] == j[i - 8];
  }

  lemma FieldNoNewline(keyword: string, value: string)
    requires '\n' !in keyword && Canonical(value)
    ensures '\n' !in FieldLine(keyword, value)
  {
    CanonicalShape(value);
    var line := FieldLine(keyword, value);
    var n := |Indent + keyword + " "|;
    assert forall i :: n <= i < |line| ==> line[i] == value[i - n];
    assert forall i :: 4 <= i < n - 1 ==> line[i] == keyword[i - 4];
  }

  /** `Host <name>` reads as a host directive of the name. */
  lemma HostTokenReading(name: string)
    requires IsToken(name)
    ensures Classify(HostLine(name)) == Directive("host", name)
  {
    FieldsOfToken(name);
    HostLineReading(name);
  }

  /** A tags comment, a blank line, then host `a`: the parser carries the
      label across the blank line to `a`. */
  function SeparatedTags(a: string, t: string): seq<string> {
    [TagsLine([t]), "", HostLine(a)]
  }

  lemma SeparatedParsed(a: string, t: string)
    requires IsToken(a) && ValidTag(t)
    ensures Parse(SeparatedTags(a, t)) == [NewHost(a, [t])]
  {
    SeparatedLexed(a, t);
    SeparatedRun(a, t);
  }

  lemma SeparatedLexed(a: string, t: string)
    requires IsToken(a) && ValidTag(t)
    ensures Lex(SeparatedTags(a, t)) == [TagsComment([t]), Blank, Directive("host", a)]
  {
    TagsLineReading([t]);
    BlankLineReading();
    HostTokenReading(a);
    LexThree(TagsLine([t]), "", HostLine(a));
  }

  /** The blank line leaves the pending label in place. */
  lemma SeparatedRun(a: string, t: string)
    ensures ParseLines([TagsComment([t]), Blank, Directive("host", a)]) == [NewHost(a, [t])]
  {
    var x, y, z := TagsComment([t]), Blank, Directive("host", a);
    RunFromSnoc(Start, [x, y], z);
    assert [x, y] + [z] == [x, y, z];
    RunPair(Start, x, y);
    var st := State([], None, [t]);
    assert Step(Step(Start, x), y) == st;
    assert Step(st, z) == State([], Some(NewHost(a, [t])), []);
  }
}

=== FILE: delete.dfy ===
/** `DeleteSSHHost`: every block of the name is dropped, together with one
    blank line directly after it; all other lines are kept as they are. */
module Delete {
  import opened Results
  import opened Text
  import opened Parser
  import opened Splice
  import opened Hosts
  import opened Block

  /** The lines of the pieces without the blocks, and without a blank line
      that directly follows a block (`afterBlock` says the previous piece
      was one). */
  function Prune(ps: seq<Piece>, afterBlock: bool): seq<string> {
    if ps == [] then []
    else if ps[0].Block? then Prune(ps[1..], true)
    else if afterBlock && Trim(ps[0].line) == "" then Prune(ps[1..], false)
    else [ps[0].line] + Prune(ps[1..], false)
  }

  /** The file's lines after deleting the host; `NotFound` when no line
      starts a block of it. */
  function DeleteLines(lines: seq<string>, name: string): (r: Result<seq<string>>)
    ensures r.Err? <==> !Mentions(lines, name)
    ensures r.Err? ==> r.error == NotFound(name)
  {
    ScanFindsIff(lines, name);
    var ps := Scan(lines, name);
    if !HasBlock(ps) then Err(NotFound(name)) else Ok(Prune(ps, false))
  }

  /** The file's text after deleting the host, split at newlines and joined
      back. */
  function DeleteText(content: string, name: string): (r: Result<string>)
    ensures r.Err? <==> !Mentions(Split(content, '\n'), name)
    ensures r.Err? ==> r.error == NotFound(name)
  {
    match DeleteLines(Split(content, '\n'), name)
    case Ok(ls) => Ok(Join(ls, "\n"))
    case Err(e) => Err(e)
  }

  // ---------------------------------------------------------------------
  // The loop of `DeleteSSHHost`

  lemma PruneCons(p: Piece, ps: seq<Piece>, afterBlock: bool)
    ensures Prune([p] + ps, afterBlock)
         == if p.Block? then Prune(ps, true)
            else if afterBlock && Trim(p.line) == "" then Prune(ps, false)
            else [p.line] + Prune(ps, false)
  {
    assert ([p] + ps)[0] == p;
    assert ([p] + ps)[1..] == ps;
  }

  /** A blank line never starts a block, so the walk keeps it. */
  lemma BlankKept(lines: seq<string>, name: string, i: nat)
    requires i < |lines| && Trim(lines[i]) == ""
    ensures ScanFrom(lines, name, i) == [Kept(lines[i])] + ScanFrom(lines, name, i + 1)
  {
    assert !HasPrefix(Trim(lines[i]), TagsPrefix);
    assert !HasPrefix(Trim(lines[i]), "Host ");
    ScanKept(lines, name, i);
  }

  /** Where the walk resumes after a block: past one blank line, when the
      block is followed by one. */
  function Resume(lines: seq<string>, e: nat): nat
    requires e <= |lines|
  {
    if e < |lines| && Trim(lines[e]) == "" then e + 1 else e
  }

  /** After a block, pruning drops the blank line that follows it, if any,
      and otherwise goes on as from the start. */
  lemma PruneAfterBlock(lines: seq<string>, name: string, e: nat)
    requires e <= |lines|
    ensures Prune(ScanFrom(lines, name, e), true) == Prune(ScanFrom(lines, name, Resume(lines, e)), false)
  {
    if e < |lines| {
      if Trim(lines[e]) == "" {
        BlankKept(lines, name, e);
        PruneCons(Kept(lines[e]), ScanFrom(lines, name, e + 1), true);
      } else {
        var ps := ScanFrom(lines, name, e);
        ScanHead(lines, name, e);
        assert ps == [ps[0]] + ps[1..];
        PruneCons(ps[0], ps[1..], true);
        PruneCons(ps[0], ps[1..], false);
      }
    }
  }

  /** The loop's invariant: the lines kept so far, followed by what the
      rest of the walk keeps, are all the lines kept, and a block has been
      found if one was found so far or is still to come. */
  predicate Walked(lines: seq<string>, name: string, i: nat, done: seq<string>, found: bool)
    requires i <= |lines|
  {
    && done + Prune(ScanFrom(lines, name, i), false) == Prune(Scan(lines, name), false)
    && (HasBlock(Scan(lines, name)) <==> found || HasBlock(ScanFrom(lines, name, i)))
  }

  lemma WalkPast(lines: seq<string>, name: string, i: nat, e: nat, done: seq<string>, found: bool)
    requires i < e <= |lines|
    requires ScanFrom(lines, name, i) == [Block(lines[i..e])] + ScanFrom(lines, name, e)
    requires Walked(lines, name, i, done, found)
    ensures Walked(lines, name, Resume(lines, e), done, true)
  {
    PruneCons(Block(lines[i..e]), ScanFrom(lines, name, e), false);
    PruneAfterBlock(lines, name, e);
    HasBlockCons(Block(lines[i..e]), ScanFrom(lines, name, e));
    HasBlockAfterBlock(lines, name, e);
  }

  /** Skipping the blank line after a block skips no block. */
  lemma HasBlockAfterBlock(lines: seq<string>, name: string, e: nat)
    requires e <= |lines|
    ensures HasBlock(ScanFrom(lines, name, e)) <==> HasBlock(ScanFrom(lines, name, Resume(lines, e)))
  {
    if e < |lines| && Trim(lines[e]) == "" {
      BlankKept(lines, name, e);
      HasBlockCons(Kept(lines[e]), ScanFrom(lines, name, e + 1));
    }
  }

  /** Deleting a block opened by a tags comment at line `i`. */
  lemma WalkTagged(lines: seq<string>, name: string, i: nat, e: nat, done: seq<string>, found: bool)
    requires i + 2 <= |lines| && TaggedMatch(lines, i, name) && e == BodyEnd(lines, i + 2)
    requires Walked(lines, name, i, done, found)
    ensures Walked(lines, name, Resume(lines, e), done, true)
  {
    ScanTagged(lines, name, i);
    WalkPast(lines, name, i, e, done, found);
  }

  /** Deleting a block opened by a `Host` line at line `i`. */
  lemma WalkHost(lines: seq<string>, name: string, i: nat, e: nat, done: seq<string>, found: bool)
    requires i < |lines| && !TaggedMatch(lines, i, name) && HostMatch(lines[i], name)
    requires e == BodyEnd(lines, i + 1)
    requires Walked(lines, name, i, done, found)
    ensures Walked(lines, name, Resume(lines, e), done, true)
  {
    ScanHost(lines, name, i);
    WalkPast(lines, name, i, e, done, found);
  }

  /** Keeping line `i`, which does not start a block. */
  lemma WalkKept(lines: seq<string>, name: string, i: nat, done: seq<string>, found: bool)
    requires i < |lines| && !MatchAt(lines, i, name)
    requires Walked(lines, name, i, done, found)
    ensures Walked(lines, name, i + 1, done + [lines[i]], found)
  {
    ScanKept(lines, name, i);
    PruneCons(Kept(lines[i]), ScanFrom(lines, name, i + 1), false);
    HasBlockCons(Kept(lines[i]), ScanFrom(lines, name, i + 1));
  }

  lemma WalkStart(lines: seq<string>, name: string)
    ensures Walked(lines, name, 0, [], false)
  {
  }

  lemma WalkEnd(lines: seq<string>, name: string, done: seq<string>, found: bool)
    requires Walked(lines, name, |lines|, done, found)
    ensures done == Prune(Scan(lines, name), false)
    ensures HasBlock(Scan(lines, name)) <==> found
  {
    assert ScanFrom(lines, name, |lines|) == [];
  }

  /** Steps over the blank line that follows a deleted block, if any. */
  method SkipBlank(lines: seq<string>, e: nat) returns (i: nat)
    requires e <= |lines|
    ensures e <= i <= |lines|
    ensures i == Resume(lines, e)
  {
    i := e;
    if i < |lines| && Trim(lines[i]) == "" {
      i := i + 1;
    }
  }

  /** The line loop of `DeleteSSHHost`, statement by statement. */
  method DeleteByWalk(lines: seq<string>, name: string) returns (r: Result<seq<string>>)
    ensures r == DeleteLines(lines, name)
  {
    var newLines: seq<string> := [];
    var i := 0;
    var hostFound := false;
    WalkStart(lines, name);
    while i < |lines|
      invariant 0 <= i <= |lines|
      invariant Walked(lines, name, i, newLines, hostFound)
      decreases |lines| - i
    {
      var line := Trim(lines[i]);
      var start := i;
      ghost var foundBefore := hostFound;
      if HasPrefix(line, TagsPrefix) && i + 1 < |lines| {
        var nextLine := Trim(lines[i + 1]);
        if nextLine == "Host " + name {
          hostFound := true;
          i := SkipBody(lines, i + 2);
          ghost var e := i;
          i := SkipBlank(lines, i);
          WalkTagged(lines, name, start, e, newLines, foundBefore);
          continue;
        }
      }
      var isHostLine := HasPrefix(line, "Host ");
      if isHostLine {
        HostLineFields(lines[i]);
      }
      if isHostLine && Fields(line)[1] == name {
        hostFound := true;
        i := SkipBody(lines, i + 1);
        ghost var e := i;
        i := SkipBlank(lines, i);
        WalkHost(lines, name, start, e, newLines, foundBefore);
        continue;
      }
      WalkKept(lines, name, i, newLines, hostFound);
      newLines := newLines + [lines[i]];
      i := i + 1;
    }
    WalkEnd(lines, name, newLines, hostFound);
    if !hostFound {
      return Err(NotFound(name));
    }
    return Ok(newLines);
  }

  // ---------------------------------------------------------------------
  // What a deletion keeps

  /** `a` is `b` with some of its lines left out. */
  predicate IsSubseq(a: seq<string>, b: seq<string>)
    decreases |b|
  {
    if a == [] then true
    else if b == [] then false
    else (a[0] == b[0] && IsSubseq(a[1..], b[1..])) || IsSubseq(a, b[1..])
  }

  lemma {:induction false} SubseqSkip(a: seq<string>, pre: seq<string>, b: seq<string>)
    requires IsSubseq(a, b)
    ensures IsSubseq(a, pre + b)
    decreases |pre|
  {
    if pre != [] && a != [] {
      SubseqSkip(a, pre[1..], b);
      assert (pre + b)[1..] == pre[1..] + b;
    } else if pre == [] {
      assert pre + b == b;
    }
  }

  lemma SubseqKeep(x: string, a: seq<string>, b: seq<string>)
    requires IsSubseq(a, b)
    ensures IsSubseq([x] + a, [x] + b)
  {
    assert ([x] + a)[1..] == a;
    assert ([x] + b)[1..] == b;
  }

  /** Pruning only leaves lines out. */
  lemma {:induction false} PruneSubseq(ps: seq<Piece>, afterBlock: bool)
    ensures IsSubseq(Prune(ps, afterBlock), Flatten(ps))
  {
    if ps != [] {
      var rest := Flatten(ps[1..]);
      assert ps == [ps[0]] + ps[1..];
      FlattenCons(ps[0], ps[1..]);
      if ps[0].Block? {
        PruneSubseq(ps[1..], true);
        SubseqSkip(Prune(ps[1..], true), ps[0].lines, rest);
      } else if afterBlock && Trim(ps[0].line) == "" {
        PruneSubseq(ps[1..], false);
        SubseqSkip(Prune(ps[1..], false), [ps[0].line], rest);
      } else {
        PruneSubseq(ps[1..], false);
        SubseqKeep(ps[0].line, Prune(ps[1..], false), rest);
      }
    }
  }

  /** The lines the walk passed over. */
  function KeptLines(ps: seq<Piece>): seq<string> {
    if ps == [] then []
    else (if ps[0].Kept? then [ps[0].line] else []) + KeptLines(ps[1..])
  }

  /** Apart from blank lines, pruning keeps exactly the lines the walk
      passed over. */
  lemma {:induction false} PruneKeepsText(ps: seq<Piece>, afterBlock: bool)
    ensures NonBlank(Prune(ps, afterBlock)) == NonBlank(KeptLines(ps))
  {
    if ps != [] {
      var l := ps[0];
      var rest := ps[1..];
      if l.Block? {
        PruneKeepsText(rest, true);
        assert KeptLines(ps) == KeptLines(rest);
      } else if afterBlock && Trim(l.line) == "" {
        PruneKeepsText(rest, false);
        assert KeptLines(ps) == [l.line] + KeptLines(rest);
        NonBlankCons(l.line, KeptLines(rest));
      } else {
        PruneKeepsText(rest, false);
        assert KeptLines(ps) == [l.line] + KeptLines(rest);
        NonBlankCons(l.line, KeptLines(rest));
        NonBlankCons(l.line, Prune(rest, false));
      }
    }
  }

  function BlockCount(ps: seq<Piece>): nat {
    if ps == [] then 0 else (if ps[0].Block? then 1 else 0) + BlockCount(ps[1..])
  }

  function BlockLineCount(ps: seq<Piece>): nat {
    if ps == [] then 0 else (if ps[0].Block? then |ps[0].lines| else 0) + BlockLineCount(ps[1..])
  }

  /** Pruning drops every line of every block and at most one more line per
      block. */
  lemma {:induction false} PruneDrops(ps: seq<Piece>, afterBlock: bool)
    ensures |Prune(ps, afterBlock)| <= |Flatten(ps)|
    ensures BlockLineCount(ps) <= |Flatten(ps)| - |Prune(ps, afterBlock)|
                               <= BlockLineCount(ps) + BlockCount(ps) + (if afterBlock then 1 else 0)
  {
    if ps != [] {
      PruneDrops(ps[1..], ps[0].Block?);
      PruneDrops(ps[1..], false);
    }
  }

  // ---------------------------------------------------------------------
  // Properties

  /** A deletion splits the file into lines it passes over and blocks of
      the name, and keeps only the passed-over lines, less one blank line
      after each block. */
  lemma DeleteSplices(lines: seq<string>, name: string)
    requires Mentions(lines, name)
    ensures DeleteLines(lines, name).Ok?
    ensures exists ps :: Flatten(ps) == lines && WellScanned(ps, name) && HasBlock(ps)
                      && DeleteLines(lines, name).value == Prune(ps, false)
  {
    ScanFlatten(lines, name, 0);
    ScanWellScanned(lines, name, 0);
  }

  /** The remaining file is the old one with lines left out. */
  lemma DeleteSubsequence(lines: seq<string>, name: string)
    requires DeleteLines(lines, name).Ok?
    ensures IsSubseq(DeleteLines(lines, name).value, lines)
  {
    PruneSubseq(Scan(lines, name), false);
    ScanFlatten(lines, name, 0);
  }

  /** Apart from blank lines, the remaining file is exactly the lines
      outside the host's blocks, in order. */
  lemma DeleteKeepsOtherLines(lines: seq<string>, name: string)
    requires DeleteLines(lines, name).Ok?
    ensures NonBlank(DeleteLines(lines, name).value) == NonBlank(KeptLines(Scan(lines, name)))
  {
    PruneKeepsText(Scan(lines, name), false);
  }

  /** The deletion removes the lines of the host's blocks and at most one
      more line per block. */
  lemma DeleteCount(lines: seq<string>, name: string)
    requires DeleteLines(lines, name).Ok?
    ensures var ps := Scan(lines, name);
      BlockLineCount(ps) <= |lines| - |DeleteLines(lines, name).value| <= BlockLineCount(ps) + BlockCount(ps)
  {
    PruneDrops(Scan(lines, name), false);
    ScanFlatten(lines, name, 0);
  }

  /** A kept line of pruned pieces was kept by the walk. */
  lemma {:induction false} PruneFromKept(ps: seq<Piece>, afterBlock: bool)
    ensures forall k :: 0 <= k < |Prune(ps, afterBlock)| ==> Prune(ps, afterBlock)[k] in KeptLines(ps)
  {
    if ps != [] {
      PruneFromKept(ps[1..], ps[0].Block?);
      PruneFromKept(ps[1..], false);
      var head := if ps[0].Kept? then [ps[0].line] else [];
      assert KeptLines(ps) == head + KeptLines(ps[1..]);
    }
  }

  /** Kept lines of well-scanned pieces do not name the host. */
  lemma {:induction false} KeptLinesUnmatched(ps: seq<Piece>, name: string)
    requires KeptUnmatched(ps, name)
    ensures forall k :: 0 <= k < |KeptLines(ps)| ==> !HostMatch(KeptLines(ps)[k], name)
  {
    if ps != [] {
      var qs := ps[1..];
      assert KeptUnmatched(qs, name) by {
        assert forall k :: 0 <= k < |qs| ==> qs[k] == ps[k + 1];
      }
      KeptLinesUnmatched(qs, name);
      var head := if ps[0].Kept? then [ps[0].line] else [];
      assert KeptLines(ps) == head + KeptLines(qs);
      assert ps[0].Kept? ==> !HostMatch(ps[0].line, name);
    }
  }

  /** No `Host` line naming the host is left. */
  lemma DeleteLeavesNoHostLine(lines: seq<string>, name: string)
    requires DeleteLines(lines, name).Ok?
    ensures var out := DeleteLines(lines, name).value;
      forall k :: 0 <= k < |out| ==> !HostMatch(out[k], name)
  {
    var ps := Scan(lines, name);
    PruneFromKept(ps, false);
    ScanWellScanned(lines, name, 0);
    KeptLinesUnmatched(ps, name);
  }

  /** For a one-word name, deleting again finds nothing: after the first
      deletion no line starts a block of the name. */
  lemma DeleteTwiceNotFound(lines: seq<string>, name: string)
    requires IsToken(name) && DeleteLines(lines, name).Ok?
    ensures DeleteLines(DeleteLines(lines, name).value, name) == Err(NotFound(name))
  {
    var out := DeleteLines(lines, name).value;
    DeleteLeavesNoHostLine(lines, name);
    if Mentions(out, name) {
      var j :| 0 <= j < |out| && MatchAt(out, j, name);
      if TaggedMatch(out, j, name) {
        TaggedHostLine(out[j + 1], name);
      }
      assert false;
    }
  }

  /** Splitting the written text at newlines gives back the remaining lines,
      unless none remain. */
  lemma DeleteTextLines(content: string, name: string)
    requires DeleteText(content, name).Ok?
    ensures var out := DeleteLines(Split(content, '\n'), name).value;
      out != [] ==> Split(DeleteText(content, name).value, '\n') == out
  {
    var lines := Split(content, '\n');
    var out := DeleteLines(lines, name).value;
    if out != [] {
      PruneFromKept(Scan(lines, name), false);
      KeptInLines(Scan(lines, name));
      ScanFlatten(lines, name, 0);
      SplitAvoids(content, '\n');
      forall k | 0 <= k < |out|
        ensures '\n' !in out[k]
      {
        var j :| 0 <= j < |lines| && lines[j] == out[k];
      }
      SplitJoin(out, '\n');
      assert "\n" == ['\n'];
    }
  }

  /** Every kept line is one of the lines the pieces hold. */
  lemma {:induction false} KeptInLines(ps: seq<Piece>)
    ensures forall k :: 0 <= k < |KeptLines(ps)| ==> KeptLines(ps)[k] in Flatten(ps)
  {
    if ps != [] {
      KeptInLines(ps[1..]);
      var head := if ps[0].Kept? then [ps[0].line] else [];
      var whole := if ps[0].Kept? then [ps[0].line] else ps[0].lines;
      assert KeptLines(ps) == head + KeptLines(ps[1..]);
      assert Flatten(ps) == whole + Flatten(ps[1..]);
    }
  }

  /** A `Host` line as the walk sees it that the parser reads as declaring
      a one-word name starts a block of that name. */
  lemma HostDeclMatches(raw: string, name: string)
    requires IsToken(name) && IsHostLine(raw) && Classify(raw) == Directive("host", name)
    ensures HostMatch(raw, name)
  {
    var t := Trim(raw);
    HostLineFields(raw);
    assert t[0] == "Host "[0];
    NonCommentLine(raw, t);
    FieldsTokens(t);
    var ws := Fields(t)[1..];
    JoinOneToken(ws, name);
    assert Fields(t)[1] == ws[0];
  }

  /** After a deletion the host is no longer listed, as long as every line
      the parser reads as a `Host` directive is written `Host ` with a space,
      the one spelling the walk recognises. */
  lemma DeleteUnlists(lines: seq<string>, name: string)
    requires IsToken(name) && DeleteLines(lines, name).Ok?
    requires forall k :: 0 <= k < |lines| && IsHostDecl(Classify(lines[k])) ==> IsHostLine(lines[k])
    ensures !HostExists(Parse(DeleteLines(lines, name).value), name)
  {
    var out := DeleteLines(lines, name).value;
    if HostExists(Parse(out), name) {
      ListedDeclared(out, name);
      var k :| 0 <= k < |out| && Classify(out[k]) == Directive("host", name);
      DeleteKeepsInputLines(lines, name);
      var j :| 0 <= j < |lines| && lines[j] == out[k];
      HostDeclMatches(out[k], name);
      DeleteLeavesNoHostLine(lines, name);
    }
  }

  /** Every line a deletion leaves is a line of the input. */
  lemma DeleteKeepsInputLines(lines: seq<string>, name: string)
    requires DeleteLines(lines, name).Ok?
    ensures var out := DeleteLines(lines, name).value;
      forall k :: 0 <= k < |out| ==> out[k] in lines
  {
    var ps := Scan(lines, name);
    PruneFromKept(ps, false);
    KeptInLines(ps);
    ScanFlatten(lines, name, 0);
    assert lines[0..] == lines;
  }

  /** One keyword token, a space and one value token read as a directive. */
  lemma TokenDirectiveLine(k: string, v: string)
    requires IsToken(k) && IsToken(v) && k[0] != '#'
    ensures Classify(k + " " + v) == Directive(ToLower(k), v)
  {
    FieldsOfToken(v);
    DirectiveLine("", k, v);
    assert "" + k + " " + v == k + " " + v;
  }

  /** A lone `Host` directive parses to one fresh host. */
  lemma SingleHostParsed(name: string)
    ensures ParseLines([Directive("host", name)]) == [NewHost(name, [])]
  {
    RunOne(Start, Directive("host", name));
  }

  /** The parser reads the directive name in any case, but the walk looks
      for `Host ` as written: a host declared by a lower-case `host` line
      is listed, yet deleting it reports `NotFound`. */
  lemma LowerCaseHostNotDeleted(name: string)
    requires IsToken(name)
    ensures Parse(["host " + name]) == [NewHost(name, [])]
    ensures DeleteLines(["host " + name], name) == Err(NotFound(name))
  {
    var raw := "host " + name;
    LowerCaseHostLine(name);
    assert Lex([raw]) == [Directive("host", name)];
    SingleHostParsed(name);
    LowerCaseHostUnmatched(name);
  }

  lemma LowerCaseHostLine(name: string)
    requires IsToken(name)
    ensures Classify("host " + name) == Directive("host", name)
  {
    TokenDirectiveLine("host", name);
    assert "host" + " " + name == "host " + name;
    LowerLowerHost();
  }

  lemma LowerLowerHost()
    ensures ToLower("host") == "host"
  {
  }

  lemma LowerCaseHostUnmatched(name: string)
    requires IsToken(name)
    ensures !Mentions(["host " + name], name)
  {
    var raw := "host " + name;
    assert IsTrimmed(raw) by {
      assert raw[|raw| - 1] == name[|name| - 1];
    }
    TrimOfTrimmed(raw);
    assert raw[0] != "Host "[0];
  }

  /** The parser splits fields at any whitespace, but the walk looks for
      `Host` followed by a space: a host declared as `Host<TAB>name` is
      listed, yet deleting it reports `NotFound`. */
  lemma TabHostNotDeleted(name: string)
    requires IsToken(name)
    ensures Parse(["Host\t" + name]) == [NewHost(name, [])]
    ensures DeleteLines(["Host\t" + name], name) == Err(NotFound(name))
  {
    var raw := "Host\t" + name;
    assert IsTrimmed(raw) by {
      assert raw[|raw| - 1] == name[|name| - 1];
    }
    TrimOfTrimmed(raw);
    assert Lex([raw]) == [Directive("host", name)] by {
      TabHostLine(name);
    }
    SingleHostParsed(name);
    assert !Mentions([raw], name) by {
      assert raw[4] != "Host "[4];
    }
  }

  lemma TabHostLine(name: string)
    requires IsToken(name) && Trim("Host\t" + name) == "Host\t" + name
    ensures Classify("Host\t" + name) == Directive("host", name)
  {
    var raw := "Host\t" + name;
    assert raw == "Host" + ['\t'] + name;
    FieldsConsAt("Host", '\t', name);
    FieldsOfToken(name);
    NonCommentLine(raw, raw);
    assert Fields(raw)[1..] == [name];
    LowerHost();
  }

  /** A file with host `a`, then a tags comment, then host `b`. */
  function TaggedNext(a: string, t: string, b: string): seq<string> {
    [HostLine(a), TagsLine([t]), HostLine(b)]
  }

  /** The parser gives the tags comment to `b`, the host declared after it,
      but the walk takes the comment as part of `a`'s body: deleting `a`
      also drops `b`'s tags. */
  lemma DeleteDropsNextTags(a: string, t: string, b: string)
    requires IsToken(a) && IsToken(b) && a != b && ValidTag(t)
    ensures Parse(TaggedNext(a, t, b)) == [NewHost(a, []), NewHost(b, [t])]
    ensures DeleteLines(TaggedNext(a, t, b), a) == Ok([HostLine(b)])
    ensures Parse([HostLine(b)]) == [NewHost(b, [])]
  {
    TaggedNextLexed(a, t, b);
    TaggedNextParsed(a, t, b);
    TaggedNextDeleted(a, t, b);
    SingleHostParsed(b);
  }

  lemma TaggedNextLexed(a: string, t: string, b: string)
    requires IsToken(a) && IsToken(b) && ValidTag(t)
    ensures Lex(TaggedNext(a, t, b)) == [Directive("host", a), TagsComment([t]), Directive("host", b)]
    ensures Lex([HostLine(b)]) == [Directive("host", b)]
  {
    HostTokenReading(a);
    HostTokenReading(b);
    TagsLineReading([t]);
    LexThree(HostLine(a), TagsLine([t]), HostLine(b));
    LexSingle(HostLine(b));
  }

  lemma TaggedNextParsed(a: string, t: string, b: string)
    ensures ParseLines([Directive("host", a), TagsComment([t]), Directive("host", b)])
         == [NewHost(a, []), NewHost(b, [t])]
  {
    var x, y, z := Directive("host", a), TagsComment([t]), Directive("host", b);
    RunFromSnoc(Start, [x, y], z);
    assert [x, y] + [z] == [x, y, z];
    RunPair(Start, x, y);
    var st := State([], Some(NewHost(a, [])), [t]);
    assert Step(Step(Start, x), y) == st;
    assert Step(st, z) == State([NewHost(a, [])], Some(NewHost(b, [t])), []);
  }

  lemma TaggedNextDeleted(a: string, t: string, b: string)
    requires IsToken(a) && IsToken(b) && a != b && ValidTag(t)
    ensures DeleteLines(TaggedNext(a, t, b), a) == Ok([HostLine(b)])
  {
    var ls := TaggedNext(a, t, b);
    TaggedNextScanned(a, t, b);
    var ps := Scan(ls, a);
    assert HasBlock(ps) by {
      assert ps[0].Block?;
    }
    HostLineShape(b);
    assert ps == [ps[0]] + [Kept(HostLine(b))];
    PruneCons(ps[0], [Kept(HostLine(b))], false);
    PruneCons(Kept(HostLine(b)), [], true);
    assert Prune(ps, false) == [HostLine(b)];
    assert DeleteLines(ls, a) == Ok(Prune(ps, false));
  }

  lemma TaggedNextScanned(a: string, t: string, b: string)
    requires IsToken(a) && IsToken(b) && a != b && ValidTag(t)
    ensures var ls := TaggedNext(a, t, b);
      Scan(ls, a) == [Block(ls[0..2]), Kept(HostLine(b))]
  {
    var ls := TaggedNext(a, t, b);
    HostLineShape(a);
    HostLineShape(b);
    assert !EndsBody(ls[1]) by {
      TagsLineTrimmed([t]);
      assert ls[1][0] != "Host "[0];
    }
    assert BodyEnd(ls, 1) == 2;
    ScanHost(ls, a, 0);
    ScanKept(ls, a, 2);
  }

  /** A tags comment and a blank line before host `a`, then a blank line
      and host `b`. */
  function SeparatedNext(a: string, t: string, b: string): seq<string> {
    [TagsLine([t]), "", HostLine(a), "", HostLine(b)]
  }

  /** The parser gives the separated comment to `a`, but the walk keeps it
      when deleting `a`, together with one of the two blank lines: `b`
      now reads back with `a`'s label. */
  lemma DeleteMovesTags(a: string, t: string, b: string)
    requires IsToken(a) && IsToken(b) && a != b && ValidTag(t)
    ensures Parse(SeparatedNext(a, t, b)) == [NewHost(a, [t]), NewHost(b, [])]
    ensures DeleteLines(SeparatedNext(a, t, b), a) == Ok([TagsLine([t]), "", HostLine(b)])
    ensures Parse([TagsLine([t]), "", HostLine(b)]) == [NewHost(b, [t])]
  {
    SeparatedNextLexed(a, t, b);
    SeparatedNextRun(a, t, b);
    SeparatedNextDeleted(a, t, b);
    SeparatedLexed(b, t);
    SeparatedRun(b, t);
  }

  lemma SeparatedNextLexed(a: string, t: string, b: string)
    requires IsToken(a) && IsToken(b) && ValidTag(t)
    ensures Lex(SeparatedNext(a, t, b))
         == [TagsComment([t]), Blank, Directive("host", a), Blank, Directive("host", b)]
  {
    var x, y := [TagsLine([t]), "", HostLine(a)], ["", HostLine(b)];
    assert SeparatedNext(a, t, b) == x + y;
    LexAppend(x, y);
    SeparatedLexed(a, t);
    HostTokenReading(b);
    BlankLineReading();
    LexAppend([""], [HostLine(b)]);
    LexSingle("");
    LexSingle(HostLine(b));
  }

  lemma SeparatedNextRun(a: string, t: string, b: string)
    ensures ParseLines([TagsComment([t]), Blank, Directive("host", a), Blank, Directive("host", b)])
         == [NewHost(a, [t]), NewHost(b, [])]
  {
    var x, y, z := TagsComment([t]), Blank, Directive("host", a);
    var u, v := Blank, Directive("host", b);
    var s3 := State([], Some(NewHost(a, [t])), []);
    RunFromSnoc(Start, [x, y], z);
    assert [x, y] + [z] == [x, y, z];
    RunPair(Start, x, y);
    assert Step(Step(Start, x), y) == State([], None, [t]);
    assert RunFrom(Start, [x, y, z]) == s3;
    RunPair(s3, u, v);
    assert RunFrom(s3, [u, v]) == State([NewHost(a, [t])], Some(NewHost(b, [])), []);
    RunFromAppend(Start, [x, y, z], [u, v]);
    assert [x, y, z] + [u, v] == [x, y, z, u, v];
  }

  lemma SeparatedNextScanned(a: string, t: string, b: string)
    requires IsToken(a) && IsToken(b) && a != b && ValidTag(t)
    ensures var ls := SeparatedNext(a, t, b);
      Scan(ls, a) == [Kept(ls[0]), Kept(ls[1]), Block(ls[2..3]), Kept(ls[3]), Kept(ls[4])]
  {
    var ls := SeparatedNext(a, t, b);
    SeparatedHead(ls, a, t);
    SeparatedNextTail(a, t, b);
  }

  /** From host `a` on: the block is the one `Host` line, and the blank
      line and host `b` are kept. */
  lemma SeparatedNextTail(a: string, t: string, b: string)
    requires IsToken(a) && IsToken(b) && a != b && ValidTag(t)
    ensures var ls := SeparatedNext(a, t, b);
      ScanFrom(ls, a, 2) == [Block(ls[2..3]), Kept(ls[3]), Kept(ls[4])]
  {
    var ls := SeparatedNext(a, t, b);
    HostLineShape(a);
    HostLineShape(b);
    assert Trim(ls[3]) == "";
    assert EndsBody(ls[3]);
    assert BodyEnd(ls, 3) == 3;
    ScanHost(ls, a, 2);
    ScanKept(ls, a, 3);
    assert !TaggedMatch(ls, 4, a);
    ScanKept(ls, a, 4);
  }

  lemma SeparatedNextDeleted(a: string, t: string, b: string)
    requires IsToken(a) && IsToken(b) && a != b && ValidTag(t)
    ensures DeleteLines(SeparatedNext(a, t, b), a) == Ok([TagsLine([t]), "", HostLine(b)])
  {
    var ls := SeparatedNext(a, t, b);
    SeparatedNextScanned(a, t, b);
    var ps := Scan(ls, a);
    assert HasBlock(ps) by {
      assert ps[2].Block?;
    }
    assert ps == [ps[0]] + ([ps[1]] + ([ps[2]] + ([ps[3]] + [ps[4]])));
    PruneCons(ps[0], [ps[1]] + ([ps[2]] + ([ps[3]] + [ps[4]])), false);
    PruneCons(ps[1], [ps[2]] + ([ps[3]] + [ps[4]]), false);
    PruneCons(ps[2], [ps[3]] + [ps[4]], false);
    PruneCons(ps[3], [ps[4]], true);
    PruneCons(ps[4], [], false);
    assert Prune(ps, false) == [TagsLine([t]), "", HostLine(b)];
    assert DeleteLines(ls, a) == Ok(Prune(ps, false));
  }
}

=== FILE: hosts.dfy ===
/** The host record of the config store and the two lookups the store offers
    over a parsed host list. */
module Hosts {
  import opened Results

  /** One managed `Host` block (`SSHHost`). `port` is kept as text; the
      parser fills in "22" when the block has no `Port` directive. */
  datatype Host = Host(
    name: string,
    hostname: string,
    user: string,
    port: string,
    identity: string,
    proxyJump: string,
    tags: seq<string>)

  /** `HostExists`, over an already parsed host list. */
  predicate HostExists(hosts: seq<Host>, name: string) {
    exists i :: 0 <= i < |hosts| && hosts[i].name == name
  }

  /** The loop of `HostExists`: stop at the first host with the name. */
  method HostExistsByLoop(hosts: seq<Host>, name: string) returns (found: bool)
    ensures found <==> HostExists(hosts, name)
    ensures found <==> FirstIndex(hosts, name) < |hosts|
  {
    var i := 0;
    while i < |hosts|
      invariant i <= |hosts|
      invariant forall j :: 0 <= j < i ==> hosts[j].name != name
    {
      if hosts[i].name == name {
        return true;
      }
      i := i + 1;
    }
    return false;
  }

  /** Position of the first host called `name`, or `|hosts|` if none is. */
  function FirstIndex(hosts: seq<Host>, name: string): (i: nat)
    ensures i <= |hosts|
    ensures forall j :: 0 <= j < i ==> hosts[j].name != name
    ensures i < |hosts| ==> hosts[i].name == name
  {
    if |hosts| == 0 then 0
    else if hosts[0].name == name then 0
    else 1 + FirstIndex(hosts[1..], name)
  }

  /** `GetSSHHost`: the first host with the given name, or `NotFound`. */
  function GetHost(hosts: seq<Host>, name: string): (r: Result<Host>)
    ensures r.Ok? <==> HostExists(hosts, name)
    ensures r.Err? ==> r.error == NotFound(name)
    ensures r.Ok? ==> r.value.name == name
    ensures r.Ok? ==>
      exists i :: 0 <= i < |hosts| && hosts[i] == r.value && (forall j :: 0 <= j < i ==> hosts[j].name != name)
  {
    var i := FirstIndex(hosts, name);
    if i < |hosts| then Ok(hosts[i]) else Err(NotFound(name))
  }
}

=== FILE: parser.dfy ===
/** `ParseSSHConfigFile` as a fold over the lines of the config file. Each
    line is classified on its own (`Classify`), and a three-part state is
    threaded through the lines (`Step`): the hosts closed so far, the host
    whose block is open, and the tags waiting for the next `Host` line. */
module Parser {
  import opened Results
  import opened Text
  import opened Hosts

  /** What one line of the config file means to the parser. */
  datatype Line =
    | Blank                                 // nothing left after trimming
    | TagsComment(tags: seq<string>)        // `# Tags: a, b, ...`
    | Comment                               // any other line starting with `#`
    | Short                                 // fewer than two fields
    | Directive(key: string, value: string) // lower-cased first field, the rest re-joined

  const TagsPrefix: string := "# Tags:"

  /** The labels of a tags comment: the comma-separated pieces that are not
      blank, each trimmed, in order. Labels are non-empty and trimmed, at
      most one per piece, and exactly the trimmed pieces when none is
      blank. */
  function Labels(pieces: seq<string>): (r: seq<string>)
    ensures r == TrimAll(NonBlank(pieces))
    ensures |r| <= |pieces|
    ensures forall k :: 0 <= k < |r| ==> r[k] != "" && IsTrimmed(r[k])
    ensures (forall k :: 0 <= k < |pieces| ==> !AllSpace(pieces[k])) ==>
      |r| == |pieces| && forall k :: 0 <= k < |r| ==> r[k] == Trim(pieces[k])
  {
    if pieces == [] then []
    else
      var t := Trim(pieces[0]);
      TrimEmpty(pieces[0]);
      assert pieces == [pieces[0]] + pieces[1..];
      NonBlankCons(pieces[0], pieces[1..]);
      if t != "" then
        TrimAllCons(pieces[0], NonBlank(pieces[1..]));
        [t] + Labels(pieces[1..])
      else
        Labels(pieces[1..])
  }

  /** The parser's reading of one raw line, in the order `ParseSSHConfigFile`
      tests: blank, tags comment, other comment, too few fields, directive.
      Only an all-whitespace line is blank. A trimmed line starting with
      `# Tags:` is a tags comment, any other starting with `#` a comment.
      Any other line with two or more fields is a directive: its key is the
      first field lower-cased and its value holds the remaining fields,
      single-spaced. Labels are non-empty and trimmed. */
  function Classify(raw: string): (r: Line)
    ensures r.Blank? <==> AllSpace(raw)
    ensures r.TagsComment? <==> HasPrefix(Trim(raw), TagsPrefix)
    ensures r.Comment? <==> HasPrefix(Trim(raw), "#") && !HasPrefix(Trim(raw), TagsPrefix)
    ensures r.Directive? <==> !HasPrefix(Trim(raw), "#") && |Fields(raw)| >= 2
    ensures r.Directive? ==> r.key == ToLower(Fields(raw)[0]) && Fields(r.value) == Fields(raw)[1..]
    ensures r.TagsComment? ==> forall k :: 0 <= k < |r.tags| ==> r.tags[k] != "" && IsTrimmed(r.tags[k])
    ensures r.Directive? ==> r.value != "" && Canonical(r.value) && r.key == ToLower(r.key)
  {
    TrimEmpty(raw);
    TrimmedShape(Trim(raw));
    ClassifyMeaning(raw);
    ClassifyTrimmed(Trim(raw))
  }

  /** What each reading says about the raw line's text and fields. */
  lemma ClassifyMeaning(raw: string)
    ensures var r := ClassifyTrimmed(Trim(raw));
      && (r.TagsComment? <==> HasPrefix(Trim(raw), TagsPrefix))
      && (r.Comment? <==> HasPrefix(Trim(raw), "#") && !HasPrefix(Trim(raw), TagsPrefix))
      && (r.Directive? <==> !HasPrefix(Trim(raw), "#") && |Fields(raw)| >= 2)
      && (r.Directive? ==> r.key == ToLower(Fields(raw)[0]) && Fields(r.value) == Fields(raw)[1..])
  {
    var line := Trim(raw);
    FieldsOfTrim(raw);
    assert HasPrefix(line, TagsPrefix) ==> HasPrefix(line, "#") by {
      if HasPrefix(line, TagsPrefix) {
        assert line[0] == TagsPrefix[0];
      }
    }
    var parts := Fields(line);
    if line != "" && !HasPrefix(line, "#") && |parts| >= 2 {
      FieldsTokens(line);
      FieldsOfJoin(parts[1..]);
    }
  }

  /** `Classify`, once the line has been trimmed. */
  function ClassifyTrimmed(line: string): Line {
    if line == "" then Blank
    else if HasPrefix(line, TagsPrefix) then TagsComment(CommentLabels(line))
    else if HasPrefix(line, "#") then Comment
    else Words(Fields(line))
  }

  /** The labels of a trimmed line that starts with the tags prefix. */
  function CommentLabels(line: string): seq<string> {
    var tagsStr := Trim(TrimPrefix(line, TagsPrefix));
    if tagsStr != "" then Labels(Split(tagsStr, ',')) else []
  }

  /** A line that is not a comment, by its fields. */
  function Words(parts: seq<string>): Line {
    if |parts| < 2 then Short
    else Directive(ToLower(parts[0]), Join(parts[1..], " "))
  }

  /** A list of two or more fields reads as a directive whose key is the
      first field lower-cased and whose value splits back into the other
      fields; the value is non-empty and single-spaced. */
  lemma WordsShape(parts: seq<string>)
    requires forall k :: 0 <= k < |parts| ==> IsToken(parts[k])
    ensures var r := Words(parts);
      && (r.Directive? <==> |parts| >= 2)
      && (r.Directive? ==> r.key == ToLower(parts[0]) && Fields(r.value) == parts[1..])
      && (r.Directive? ==> r.value != "" && Canonical(r.value) && r.key == ToLower(r.key))
  {
    if |parts| >= 2 {
      var v := Join(parts[1..], " ");
      assert v != "" by {
        JoinTokensShape(parts[1..]);
      }
      FieldsOfJoin(parts[1..]);
      assert ToLower(ToLower(parts[0])) == ToLower(parts[0]) by {
        LowerIdempotent(parts[0]);
      }
    }
  }

  /** The shape of the reading of a trimmed line. */
  lemma TrimmedShape(line: string)
    ensures var r := ClassifyTrimmed(line);
      && (r.TagsComment? ==> forall k :: 0 <= k < |r.tags| ==> r.tags[k] != "" && IsTrimmed(r.tags[k]))
      && (r.Directive? ==> r.value != "" && Canonical(r.value) && r.key == ToLower(r.key))
  {
    var r := ClassifyTrimmed(line);
    if r.Directive? {
      FieldsTokens(line);
      WordsShape(Fields(line));
    }
  }

  lemma LowerIdempotent(s: string)
    ensures ToLower(ToLower(s)) == ToLower(s)
  {
  }

  /** The directives that set a field of the open host. */
  predicate IsFieldKey(key: string) {
    key == "hostname" || key == "user" || key == "port" || key == "identityfile" || key == "proxyjump"
  }

  /** The host a field directive leaves behind: only the named field
      changes, and never the name or the tags. */
  function SetField(h: Host, key: string, value: string): (r: Host)
    ensures r.name == h.name && r.tags == h.tags
    ensures key == "hostname" ==> r == h.(hostname := value)
    ensures key == "user" ==> r == h.(user := value)
    ensures key == "port" ==> r == h.(port := value)
    ensures key == "identityfile" ==> r == h.(identity := value)
    ensures key == "proxyjump" ==> r == h.(proxyJump := value)
    ensures !IsFieldKey(key) ==> r == h
  {
    match key
    case "hostname" => h.(hostname := value)
    case "user" => h.(user := value)
    case "port" => h.(port := value)
    case "identityfile" => h.(identity := value)
    case "proxyjump" => h.(proxyJump := value)
    case _ => h
  }

  /** A host as a `Host` line creates it: default port, every other field
      empty, and the tags collected since the previous `Host` line. */
  function NewHost(name: string, tags: seq<string>): Host {
    Host(name, "", "", "22", "", "", tags)
  }

  /** The parser's state between two lines. */
  datatype State = State(hosts: seq<Host>, current: Option<Host>, pending: seq<string>)

  const Start: State := State([], None, [])

  /** The hosts a state stands for: the closed ones, then the open one. */
  function Closed(st: State): seq<Host> {
    if st.current.Some? then st.hosts + [st.current.value] else st.hosts
  }

  /** One iteration of the parser's line loop, on the line's reading. */
  function Step(st: State, line: Line): State
  {
    match line
    case TagsComment(tags) => st.(pending := st.pending + tags)
    case Directive(key, value) =>
      if key == "host" then State(Closed(st), Some(NewHost(value, st.pending)), [])
      else if st.current.Some? && IsFieldKey(key) then st.(current := Some(SetField(st.current.value, key, value)))
      else st
    case _ => st
  }

  function RunFrom(st: State, lines: seq<Line>): State
    decreases |lines|
  {
    if lines == [] then st else RunFrom(Step(st, lines[0]), lines[1..])
  }

  /** The reading of every line of the file. Classifying a line does not
      depend on the parser's state, so the line loop is a fold of `Step`
      over this sequence. */
  function Lex(lines: seq<string>): (r: seq<Line>)
    ensures |r| == |lines|
  {
    seq(|lines|, i requires 0 <= i < |lines| => Classify(lines[i]))
  }

  lemma LexAppend(a: seq<string>, b: seq<string>)
    ensures Lex(a + b) == Lex(a) + Lex(b)
  {
    assert forall k :: 0 <= k < |a + b| ==> Lex(a + b)[k] == (Lex(a) + Lex(b))[k];
  }

  lemma LexThree(x: string, y: string, z: string)
    ensures Lex([x, y, z]) == [Classify(x), Classify(y), Classify(z)]
  {
  }

  /** Removing one raw line removes its reading. */
  lemma LexRemove(lines: seq<string>, i: nat)
    requires i < |lines|
    ensures Lex(lines[..i] + lines[i + 1..]) == Lex(lines)[..i] + Lex(lines)[i + 1..]
  {
    var a := lines[..i] + lines[i + 1..];
    assert forall k :: 0 <= k < |a| ==> a[k] == if k < i then lines[k] else lines[k + 1];
  }

  /** The hosts a sequence of line readings parses to. */
  function ParseLines(ls: seq<Line>): seq<Host> {
    Closed(RunFrom(Start, ls))
  }

  /** Tags read but not yet given to a host when the lines run out. */
  function PendingLines(ls: seq<Line>): seq<string> {
    RunFrom(Start, ls).pending
  }

  /** `ParseSSHConfigFile` over the lines of the file: one host per `Host`
      line, in file order, and every tags label on exactly one host or
      still pending at the end. */
  function Parse(lines: seq<string>): (r: seq<Host>)
    ensures Names(r) == HostDecls(Lex(lines))
    ensures AllTags(r) + Pending(lines) == TagLabels(Lex(lines))
  {
    HostsInDeclarationOrder(Lex(lines));
    TagsPartitioned(Lex(lines));
    ParseLines(Lex(lines))
  }

  function Pending(lines: seq<string>): seq<string> {
    PendingLines(Lex(lines))
  }

  // ---------------------------------------------------------------------
  // Reference views of a line sequence, independent of the fold

  predicate IsHostDecl(line: Line) {
    line.Directive? && line.key == "host"
  }

  /** The name a line declares, if it is a `Host` line. */
  function Declared(line: Line): seq<string> {
    if IsHostDecl(line) then [line.value] else []
  }

  /** The names declared by `Host` lines, in file order. */
  function HostDecls(lines: seq<Line>): seq<string> {
    if lines == [] then [] else Declared(lines[0]) + HostDecls(lines[1..])
  }

  function TagsOf(line: Line): seq<string> {
    if line.TagsComment? then line.tags else []
  }

  /** Every label of every tags comment, in file order. */
  function TagLabels(lines: seq<Line>): seq<string> {
    if lines == [] then [] else TagsOf(lines[0]) + TagLabels(lines[1..])
  }

  function Names(hosts: seq<Host>): seq<string> {
    seq(|hosts|, i requires 0 <= i < |hosts| => hosts[i].name)
  }

  /** The tags of all hosts, concatenated in host order. */
  function AllTags(hosts: seq<Host>): seq<string> {
    if hosts == [] then [] else AllTags(hosts[..|hosts| - 1]) + hosts[|hosts| - 1].tags
  }

  /** The value of the last `key` directive of a block, or `d` if it has
      none: what a block's field ends up as. */
  function LastValue(block: seq<Line>, key: string, d: string): string {
    if block == [] then d
    else
      var c := block[|block| - 1];
      if c.Directive? && c.key == key then c.value else LastValue(block[..|block| - 1], key, d)
  }

  /** The open host `h` after the directives of `block`. */
  function Overlay(h: Host, block: seq<Line>): Host {
    h.(hostname := LastValue(block, "hostname", h.hostname),
       user := LastValue(block, "user", h.user),
       port := LastValue(block, "port", h.port),
       identity := LastValue(block, "identityfile", h.identity),
       proxyJump := LastValue(block, "proxyjump", h.proxyJump))
  }

  /** Applying one field directive is overlaying a one-line block: the
      step of the line loop agrees with the per-field reference. */
  lemma SetFieldIsOverlay(h: Host, key: string, value: string)
    ensures SetField(h, key, value) == Overlay(h, [Directive(key, value)])
  {
    LastValueOne(key, value, "hostname", h.hostname);
    LastValueOne(key, value, "user", h.user);
    LastValueOne(key, value, "port", h.port);
    LastValueOne(key, value, "identityfile", h.identity);
    LastValueOne(key, value, "proxyjump", h.proxyJump);
  }

  lemma LastValueOne(key: string, value: string, k: string, d: string)
    ensures LastValue([Directive(key, value)], k, d) == if key == k then value else d
  {
    assert [Directive(key, value)][..0] == [];
  }

  /** A line the parser skips whatever its state. */
  predicate Inert(c: Line) {
    c.Blank? || c.Comment? || c.Short? || (c.Directive? && c.key != "host" && !IsFieldKey(c.key))
  }

  // ---------------------------------------------------------------------
  // The fold

  lemma {:induction false} RunFromAppend(st: State, a: seq<Line>, b: seq<Line>)
    ensures RunFrom(st, a + b) == RunFrom(RunFrom(st, a), b)
    decreases |a|
  {
    if a == [] {
      assert a + b == b;
    } else {
      assert (a + b)[0] == a[0];
      assert (a + b)[1..] == a[1..] + b;
      RunFromAppend(Step(st, a[0]), a[1..], b);
    }
  }

  lemma RunFromSnoc(st: State, a: seq<Line>, l: Line)
    ensures RunFrom(st, a + [l]) == Step(RunFrom(st, a), l)
  {
    RunFromAppend(st, a, [l]);
  }

  lemma RunOne(st: State, l: Line)
    ensures RunFrom(st, [l]) == Step(st, l)
  {
    assert [l][1..] == [];
  }

  lemma RunPair(st: State, a: Line, b: Line)
    ensures RunFrom(st, [a, b]) == Step(Step(st, a), b)
  {
    assert [a, b][1..] == [b];
    RunOne(Step(st, a), b);
  }

  lemma {:induction false} TagLabelsAppend(a: seq<Line>, b: seq<Line>)
    ensures TagLabels(a + b) == TagLabels(a) + TagLabels(b)
  {
    if a == [] {
      assert a + b == b;
    } else {
      assert (a + b)[0] == a[0];
      assert (a + b)[1..] == a[1..] + b;
      TagLabelsAppend(a[1..], b);
    }
  }

  lemma AllTagsSnoc(hosts: seq<Host>, h: Host)
    ensures AllTags(hosts + [h]) == AllTags(hosts) + h.tags
  {
    assert (hosts + [h])[..|hosts|] == hosts;
  }

  /** A `Host` line adds its name after the names of the hosts so far;
      no other line changes the names. */
  lemma StepNames(st: State, raw: Line)
    ensures Names(Closed(Step(st, raw))) == Names(Closed(st)) + Declared(raw)
  {
  }

  /** A tags comment adds its labels after the tags of the hosts and the
      pending ones; no other line adds, drops or reorders a label. */
  lemma StepTags(st: State, raw: Line)
    ensures AllTags(Closed(Step(st, raw))) + Step(st, raw).pending == AllTags(Closed(st)) + st.pending + TagsOf(raw)
  {
    var c := raw;
    if c.Directive? && c.key == "host" {
      AllTagsSnoc(Closed(st), NewHost(c.value, st.pending));
    } else if c.Directive? && st.current.Some? && IsFieldKey(c.key) {
      AllTagsSnoc(st.hosts, st.current.value);
      AllTagsSnoc(st.hosts, SetField(st.current.value, c.key, c.value));
    }
  }

  lemma {:induction false} RunNames(st: State, lines: seq<Line>)
    ensures Names(Closed(RunFrom(st, lines))) == Names(Closed(st)) + HostDecls(lines)
    decreases |lines|
  {
    if lines != [] {
      StepNames(st, lines[0]);
      RunNames(Step(st, lines[0]), lines[1..]);
    }
  }

  lemma {:induction false} RunTags(st: State, lines: seq<Line>)
    ensures AllTags(Closed(RunFrom(st, lines))) + RunFrom(st, lines).pending
         == AllTags(Closed(st)) + st.pending + TagLabels(lines)
    decreases |lines|
  {
    if lines != [] {
      var next := Step(st, lines[0]);
      StepTags(st, lines[0]);
      RunTags(next, lines[1..]);
      assert RunFrom(st, lines) == RunFrom(next, lines[1..]);
      assert TagLabels(lines) == TagsOf(lines[0]) + TagLabels(lines[1..]);
      calc {
        AllTags(Closed(next)) + next.pending + TagLabels(lines[1..]);
        (AllTags(Closed(st)) + st.pending + TagsOf(lines[0])) + TagLabels(lines[1..]);
        AllTags(Closed(st)) + st.pending + TagLabels(lines);
      }
    }
  }

  // ---------------------------------------------------------------------
  // Properties of the parser

  /** Parsing yields exactly one host per `Host` line, in file order. */
  lemma HostsInDeclarationOrder(ls: seq<Line>)
    ensures Names(ParseLines(ls)) == HostDecls(ls)
  {
    RunNamesFromStart(ls);
    assert Names(Closed(Start)) == [];
  }

  /** Every declared name comes from a `Host` line of the file. */
  lemma {:induction false} DeclaredAt(ls: seq<Line>, name: string)
    requires name in HostDecls(ls)
    ensures exists k :: 0 <= k < |ls| && IsHostDecl(ls[k]) && ls[k].value == name
  {
    if name in Declared(ls[0]) {
      assert IsHostDecl(ls[0]) && ls[0].value == name;
    } else {
      DeclaredAt(ls[1..], name);
      var k :| 0 <= k < |ls[1..]| && IsHostDecl(ls[1..][k]) && ls[1..][k].value == name;
      assert ls[k + 1] == ls[1..][k];
    }
  }

  /** A listed host was declared by some line of the file. */
  lemma ListedDeclared(lines: seq<string>, name: string)
    requires HostExists(Parse(lines), name)
    ensures exists k :: 0 <= k < |lines| && Classify(lines[k]) == Directive("host", name)
  {
    var hosts := Parse(lines);
    var i :| 0 <= i < |hosts| && hosts[i].name == name;
    assert Names(hosts)[i] == name;
    DeclaredAt(Lex(lines), name);
    var k :| 0 <= k < |Lex(lines)| && IsHostDecl(Lex(lines)[k]) && Lex(lines)[k].value == name;
    assert Classify(lines[k]) == Lex(lines)[k];
  }

  lemma RunNamesFromStart(ls: seq<Line>)
    ensures Names(ParseLines(ls)) == Names(Closed(Start)) + HostDecls(ls)
  {
    RunNames(Start, ls);
  }

  /** As many hosts as `Host` lines. */
  lemma HostCount(ls: seq<Line>)
    ensures |ParseLines(ls)| == |HostDecls(ls)|
  {
    HostsInDeclarationOrder(ls);
    assert |Names(ParseLines(ls))| == |ParseLines(ls)|;
  }

  /** Every label of every tags comment ends up on exactly one host, or is
      still pending at the end of the file: the labels of the hosts, in
      host order, followed by the pending ones, are all labels in file
      order. In particular no label is given to two hosts. */
  lemma TagsPartitioned(ls: seq<Line>)
    ensures AllTags(ParseLines(ls)) + PendingLines(ls) == TagLabels(ls)
  {
    RunTags(Start, ls);
  }

  /** A `Host` line closes the open host and opens a fresh one with the
      default port, empty fields and the tags collected so far; the
      pending tags are cleared. */
  lemma HostLineOpensBlock(ls: seq<Line>, i: nat)
    requires i < |ls| && IsHostDecl(ls[i])
    ensures RunFrom(Start, ls[..i + 1])
         == State(ParseLines(ls[..i]), Some(Host(ls[i].value, "", "", "22", "", "", PendingLines(ls[..i]))), [])
  {
    assert ls[..i + 1] == ls[..i] + [ls[i]];
    RunFromSnoc(Start, ls[..i], ls[i]);
  }

  /** Within a block, the last directive for a key wins; the open host's
      name and tags stay, tags comments go to the pending list, and no
      host is closed. */
  lemma {:induction false} LastDirectiveWins(st: State, block: seq<Line>)
    requires st.current.Some?
    requires forall k :: 0 <= k < |block| ==> !IsHostDecl(block[k])
    ensures RunFrom(st, block)
         == State(st.hosts, Some(Overlay(st.current.value, block)), st.pending + TagLabels(block))
    decreases |block|
  {
    if block == [] {
    } else {
      var init := block[..|block| - 1];
      var l := block[|block| - 1];
      assert block == init + [l];
      LastDirectiveWins(st, init);
      RunFromSnoc(st, init, l);
      TagLabelsAppend(init, [l]);
      assert init == block[..|block| - 1];
    }
  }

  /** Field directives before the first `Host` line change nothing; only
      tags comments there have an effect (their labels become pending). */
  lemma {:induction false} DirectivesBeforeHostIgnored(st: State, block: seq<Line>)
    requires st.current.None?
    requires forall k :: 0 <= k < |block| ==> !IsHostDecl(block[k])
    ensures RunFrom(st, block) == st.(pending := st.pending + TagLabels(block))
    decreases |block|
  {
    if block != [] {
      DirectivesBeforeHostIgnored(Step(st, block[0]), block[1..]);
    }
  }

  /** Blank lines, comments other than tags comments, lines with fewer than
      two fields and unknown directives can be removed without changing
      what the file parses to. */
  lemma InertLineIgnored(ls: seq<Line>, i: nat)
    requires i < |ls| && Inert(ls[i])
    ensures ParseLines(ls[..i] + ls[i + 1..]) == ParseLines(ls)
    ensures PendingLines(ls[..i] + ls[i + 1..]) == PendingLines(ls)
  {
    var a := ls[..i];
    var b := ls[i + 1..];
    assert ls == a + ([ls[i]] + b);
    RunFromAppend(Start, a, [ls[i]] + b);
    RunFromAppend(Start, a, b);
  }

  /** The same for a raw line of the file whose reading is inert. */
  lemma InertRawLineIgnored(lines: seq<string>, i: nat)
    requires i < |lines| && Inert(Classify(lines[i]))
    ensures Parse(lines[..i] + lines[i + 1..]) == Parse(lines)
    ensures Pending(lines[..i] + lines[i + 1..]) == Pending(lines)
  {
    LexRemove(lines, i);
    InertLineIgnored(Lex(lines), i);
  }

  // ---------------------------------------------------------------------
  // How the parser reads lines of the shapes the store writes

  /** A trimmed line that does not start with `#` is read by its fields. */
  lemma NonCommentLine(raw: string, line: string)
    requires Trim(raw) == line && line != "" && line[0] != '#'
    ensures Classify(raw) == Words(Fields(line))
  {
    assert !HasPrefix(line, TagsPrefix) by {
      assert TagsPrefix[0] == '#';
    }
  }

  lemma IndentedTrim(indent: string, k: string, v: string)
    requires AllSpace(indent) && IsToken(k) && Canonical(v) && v != ""
    ensures Trim(indent + k + " " + v) == k + " " + v
  {
    var s := k + " " + v;
    assert indent + k + " " + v == indent + s + "";
    KeywordValueLine(k, v);
    TrimPadded(indent, s, "");
  }

  lemma KeywordValueWords(k: string, v: string)
    requires IsToken(k) && Canonical(v) && v != ""
    ensures Words(Fields(k + " " + v)) == Directive(ToLower(k), v)
  {
    var parts := Fields(k + " " + v);
    assert parts == [k] + Fields(v) && Join(Fields(v), " ") == v by {
      KeywordValueLine(k, v);
    }
    assert |Fields(v)| >= 1 by {
      CanonicalShape(v);
    }
    assert parts[0] == k && parts[1..] == Fields(v);
  }

  /** A trimmed line that starts with the tags prefix is a tags comment. */
  lemma TagsCommentLine(line: string)
    requires Trim(line) == line && HasPrefix(line, TagsPrefix)
    ensures Classify(line) == TagsComment(CommentLabels(line))
  {
  }

  /** An indented keyword followed by a canonical value is a directive whose
      key is the lower-cased keyword and whose value is the value. */
  lemma DirectiveLine(indent: string, k: string, v: string)
    requires AllSpace(indent) && IsToken(k) && k[0] != '#'
    requires Canonical(v) && v != ""
    ensures Classify(indent + k + " " + v) == Directive(ToLower(k), v)
  {
    IndentedTrim(indent, k, v);
    NonCommentLine(indent + k + " " + v, k + " " + v);
    KeywordValueWords(k, v);
  }

  /** Keys match case-insensitively: two spellings of a keyword that agree
      after lower-casing read the same. */
  lemma KeyCaseInsensitive(indent: string, k1: string, k2: string, v: string)
    requires AllSpace(indent) && IsToken(k1) && IsToken(k2) && k1[0] != '#' && k2[0] != '#'
    requires ToLower(k1) == ToLower(k2)
    requires Canonical(v) && v != ""
    ensures Classify(indent + k1 + " " + v) == Classify(indent + k2 + " " + v)
  {
    DirectiveLine(indent, k1, v);
    DirectiveLine(indent, k2, v);
  }

  /** A keyword with an empty value has one field only and is skipped. */
  lemma KeywordOnlyLine(indent: string, k: string)
    requires AllSpace(indent) && IsToken(k) && k[0] != '#'
    ensures Classify(indent + k + " ") == Short
  {
    assert Trim(indent + k + " ") == k by {
      TrimPadded(indent, k, " ");
    }
    NonCommentLine(indent + k + " ", k);
    FieldsOfToken(k);
  }
}

=== FILE: results.dfy ===
/** Failure-carrying return values of the config store: a nullable value and
    the store's two typed errors (the host is missing, or its name is taken). */
module Results {

  datatype Option<+T> = None | Some(value: T)

  /** The errors the store reports to its callers. I/O errors are not part
      of this model. */
  datatype Error =
    | NotFound(name: string)
    | AlreadyExists(name: string)

  datatype Result<+T> = Ok(value: T) | Err(error: Error)
}

=== FILE: splice.dfy ===
/** How `UpdateSSHHost` and `DeleteSSHHost` find the block of a host in the
    lines of the config file. Both walk the lines once: a `# Tags:` comment
    directly followed by `Host <name>`, or a `Host` line whose first pattern
    is the name, starts a block, and the block runs up to the next blank
    line or `Host` line. Everything else is passed over line by line. The
    walk is modelled here as a partition of the lines into pieces. */
module Splice {
  import opened Text
  import opened Parser
  import opened Block

  /** The trimmed line starts with `# Tags:`. */
  predicate IsTagsLine(raw: string) {
    HasPrefix(Trim(raw), TagsPrefix)
  }

  /** The trimmed line starts with `Host ` (case and spacing as written). */
  predicate IsHostLine(raw: string) {
    HasPrefix(Trim(raw), "Host ")
  }

  /** A trimmed line that starts with `Host ` has a second field, so
      `strings.Fields(line)[1]` in `UpdateSSHHost` and `DeleteSSHHost`
      cannot go out of range. */
  lemma HostLineFields(raw: string)
    requires IsHostLine(raw)
    ensures |Fields(Trim(raw))| >= 2
  {
    var t := Trim(raw);
    var rest := t[5..];
    assert t == "Host" + " " + rest;
    assert rest != [] && rest[|rest| - 1] == t[|t| - 1];
    FieldsCons("Host", rest);
    FieldsNonEmpty(rest);
  }

  /** A `Host` line whose first pattern is `name`. */
  predicate HostMatch(raw: string, name: string) {
    IsHostLine(raw) && |Fields(Trim(raw))| >= 2 && Fields(Trim(raw))[1] == name
  }

  /** A line that ends a block's body: blank once trimmed, or a `Host` line. */
  predicate EndsBody(raw: string) {
    Trim(raw) == "" || IsHostLine(raw)
  }

  /** Line `i` is a tags comment and the next line is exactly `Host <name>`
      once trimmed. */
  predicate TaggedMatch(lines: seq<string>, i: nat, name: string) {
    i + 1 < |lines| && IsTagsLine(lines[i]) && Trim(lines[i + 1]) == "Host " + name
  }

  /** A block of the host starts at line `i`. */
  predicate MatchAt(lines: seq<string>, i: nat, name: string)
    requires i < |lines|
  {
    TaggedMatch(lines, i, name) || HostMatch(lines[i], name)
  }

  /** The file mentions the host: some line starts a block of it. */
  predicate Mentions(lines: seq<string>, name: string) {
    exists i :: 0 <= i < |lines| && MatchAt(lines, i, name)
  }

  /** Where a body that starts at line `i` ends: the first line from `i` on
      that ends a body, or the end of the file. */
  function BodyEnd(lines: seq<string>, i: nat): (j: nat)
    requires i <= |lines|
    ensures i <= j <= |lines|
    ensures forall k :: i <= k < j ==> !EndsBody(lines[k])
    ensures j < |lines| ==> EndsBody(lines[j])
    decreases |lines| - i
  {
    if i == |lines| || EndsBody(lines[i]) then i else BodyEnd(lines, i + 1)
  }

  /** The inner loop of `UpdateSSHHost` and `DeleteSSHHost`: skip the lines
      of a body. */
  method SkipBody(lines: seq<string>, i: nat) returns (j: nat)
    requires i <= |lines|
    ensures j == BodyEnd(lines, i)
  {
    j := i;
    while j < |lines| && Trim(lines[j]) != "" && !HasPrefix(Trim(lines[j]), "Host ")
      invariant i <= j <= |lines|
      invariant BodyEnd(lines, j) == BodyEnd(lines, i)
      decreases |lines| - j
    {
      j := j + 1;
    }
  }

  /** A line passed over, or a whole block of the host. */
  datatype Piece = Kept(line: string) | Block(lines: seq<string>)

  function Flatten(ps: seq<Piece>): seq<string> {
    if ps == [] then []
    else (if ps[0].Kept? then [ps[0].line] else ps[0].lines) + Flatten(ps[1..])
  }

  /** The walk over the lines from line `i` on. */
  function ScanFrom(lines: seq<string>, name: string, i: nat): seq<Piece>
    requires i <= |lines|
    decreases |lines| - i
  {
    if i == |lines| then []
    else if TaggedMatch(lines, i, name) then
      var e := BodyEnd(lines, i + 2);
      [Block(lines[i..e])] + ScanFrom(lines, name, e)
    else if HostMatch(lines[i], name) then
      var e := BodyEnd(lines, i + 1);
      [Block(lines[i..e])] + ScanFrom(lines, name, e)
    else
      [Kept(lines[i])] + ScanFrom(lines, name, i + 1)
  }

  /** One step of the walk at a tags comment that opens a block. */
  lemma ScanTagged(lines: seq<string>, name: string, i: nat)
    requires i < |lines| && TaggedMatch(lines, i, name)
    ensures var e := BodyEnd(lines, i + 2);
      ScanFrom(lines, name, i) == [Block(lines[i..e])] + ScanFrom(lines, name, e)
  {
  }

  /** One step of the walk at a `Host` line that opens a block. */
  lemma ScanHost(lines: seq<string>, name: string, i: nat)
    requires i < |lines| && !TaggedMatch(lines, i, name) && HostMatch(lines[i], name)
    ensures var e := BodyEnd(lines, i + 1);
      ScanFrom(lines, name, i) == [Block(lines[i..e])] + ScanFrom(lines, name, e)
  {
  }

  /** One step of the walk at a line it passes over. */
  lemma ScanKept(lines: seq<string>, name: string, i: nat)
    requires i < |lines| && !MatchAt(lines, i, name)
    ensures ScanFrom(lines, name, i) == [Kept(lines[i])] + ScanFrom(lines, name, i + 1)
  {
  }

  function Scan(lines: seq<string>, name: string): seq<Piece> {
    ScanFrom(lines, name, 0)
  }

  predicate HasBlock(ps: seq<Piece>) {
    exists k :: 0 <= k < |ps| && ps[k].Block?
  }

  /** The first line of a piece. */
  function Head(p: Piece): string {
    if p.Kept? then p.line else if p.lines != [] then p.lines[0] else ""
  }

  /** A block of the host: it opens with a `Host` line that names it, or
      with a tags comment followed by exactly `Host <name>`, and every
      further line is a body line. */
  predicate IsHostBlock(b: seq<string>, name: string) {
    || (|b| >= 1 && HostMatch(b[0], name) && forall k :: 1 <= k < |b| ==> !EndsBody(b[k]))
    || (|b| >= 2 && IsTagsLine(b[0]) && Trim(b[1]) == "Host " + name
        && forall k :: 2 <= k < |b| ==> !EndsBody(b[k]))
  }

  /** What the walk guarantees of its pieces: every block is a block of the
      host and extends as far as its body goes; no line passed over starts a
      block of the host. */
  predicate WellScanned(ps: seq<Piece>, name: string) {
    BlocksOfHost(ps, name) && BlocksMaximal(ps) && KeptUnmatched(ps, name)
  }

  predicate BlocksOfHost(ps: seq<Piece>, name: string) {
    forall k :: 0 <= k < |ps| && ps[k].Block? ==> IsHostBlock(ps[k].lines, name)
  }

  predicate BlocksMaximal(ps: seq<Piece>) {
    forall k :: 0 <= k < |ps| - 1 && ps[k].Block? ==> EndsBody(Head(ps[k + 1]))
  }

  predicate KeptUnmatched(ps: seq<Piece>, name: string) {
    && (forall k :: 0 <= k < |ps| && ps[k].Kept? ==> !HostMatch(ps[k].line, name))
    && (forall k :: 0 <= k < |ps| - 1 && ps[k].Kept? && IsTagsLine(ps[k].line)
          ==> Trim(Head(ps[k + 1])) != "Host " + name)
  }

  // ---------------------------------------------------------------------
  // The walk partitions the lines

  lemma FlattenCons(p: Piece, ps: seq<Piece>)
    ensures Flatten([p] + ps) == (if p.Kept? then [p.line] else p.lines) + Flatten(ps)
  {
    assert ([p] + ps)[0] == p;
    assert ([p] + ps)[1..] == ps;
  }

  /** The pieces of the walk, put back together, are the lines it walked. */
  lemma {:induction false} ScanFlatten(lines: seq<string>, name: string, i: nat)
    requires i <= |lines|
    ensures Flatten(ScanFrom(lines, name, i)) == lines[i..]
    decreases |lines| - i
  {
    if i < |lines| {
      if TaggedMatch(lines, i, name) {
        var e := BodyEnd(lines, i + 2);
        ScanFlatten(lines, name, e);
        BlockFlatten(lines, i, e, ScanFrom(lines, name, e));
      } else if HostMatch(lines[i], name) {
        var e := BodyEnd(lines, i + 1);
        ScanFlatten(lines, name, e);
        BlockFlatten(lines, i, e, ScanFrom(lines, name, e));
      } else {
        ScanFlatten(lines, name, i + 1);
        KeptFlatten(lines, i, ScanFrom(lines, name, i + 1));
      }
    }
  }

  lemma BlockFlatten(lines: seq<string>, i: nat, e: nat, ps: seq<Piece>)
    requires i <= e <= |lines| && Flatten(ps) == lines[e..]
    ensures Flatten([Block(lines[i..e])] + ps) == lines[i..]
  {
    FlattenCons(Block(lines[i..e]), ps);
    assert lines[i..] == lines[i..e] + lines[e..];
  }

  lemma KeptFlatten(lines: seq<string>, i: nat, ps: seq<Piece>)
    requires i < |lines| && Flatten(ps) == lines[i + 1..]
    ensures Flatten([Kept(lines[i])] + ps) == lines[i..]
  {
    FlattenCons(Kept(lines[i]), ps);
    assert lines[i..] == [lines[i]] + lines[i + 1..];
  }

  /** The first piece of the walk from a line starts with that line. */
  lemma ScanHead(lines: seq<string>, name: string, i: nat)
    requires i < |lines|
    ensures ScanFrom(lines, name, i) != []
    ensures Head(ScanFrom(lines, name, i)[0]) == lines[i]
  {
  }

  /** Prepending a piece to well-scanned pieces keeps them well scanned
      when the piece fits in front of the first one. */
  lemma WellScannedCons(p: Piece, ps: seq<Piece>, name: string)
    requires WellScanned(ps, name)
    requires p.Block? ==> IsHostBlock(p.lines, name) && (ps != [] ==> EndsBody(Head(ps[0])))
    requires p.Kept? ==> !HostMatch(p.line, name)
    requires p.Kept? && IsTagsLine(p.line) && ps != [] ==> Trim(Head(ps[0])) != "Host " + name
    ensures WellScanned([p] + ps, name)
  {
    BlocksOfHostCons(p, ps, name);
    BlocksMaximalCons(p, ps);
    KeptUnmatchedCons(p, ps, name);
  }

  lemma BlocksOfHostCons(p: Piece, ps: seq<Piece>, name: string)
    requires BlocksOfHost(ps, name)
    requires p.Block? ==> IsHostBlock(p.lines, name)
    ensures BlocksOfHost([p] + ps, name)
  {
    var qs := [p] + ps;
    assert forall k :: 1 <= k < |qs| ==> qs[k] == ps[k - 1];
  }

  lemma BlocksMaximalCons(p: Piece, ps: seq<Piece>)
    requires BlocksMaximal(ps)
    requires p.Block? && ps != [] ==> EndsBody(Head(ps[0]))
    ensures BlocksMaximal([p] + ps)
  {
    var qs := [p] + ps;
    assert forall k :: 1 <= k < |qs| ==> qs[k] == ps[k - 1];
  }

  lemma KeptUnmatchedCons(p: Piece, ps: seq<Piece>, name: string)
    requires KeptUnmatched(ps, name)
    requires p.Kept? ==> !HostMatch(p.line, name)
    requires p.Kept? && IsTagsLine(p.line) && ps != [] ==> Trim(Head(ps[0])) != "Host " + name
    ensures KeptUnmatched([p] + ps, name)
  {
    var qs := [p] + ps;
    assert forall k :: 1 <= k < |qs| ==> qs[k] == ps[k - 1];
  }

  /** The walk's pieces are well scanned. */
  lemma {:induction false} ScanWellScanned(lines: seq<string>, name: string, i: nat)
    requires i <= |lines|
    ensures WellScanned(ScanFrom(lines, name, i), name)
    decreases |lines| - i
  {
    if i < |lines| {
      if TaggedMatch(lines, i, name) {
        var e := BodyEnd(lines, i + 2);
        ScanWellScanned(lines, name, e);
        BlockStep(lines, name, i, 2, e);
      } else if HostMatch(lines[i], name) {
        var e := BodyEnd(lines, i + 1);
        ScanWellScanned(lines, name, e);
        BlockStep(lines, name, i, 1, e);
      } else {
        ScanWellScanned(lines, name, i + 1);
        KeptStep(lines, name, i);
      }
    }
  }

  lemma BlockStep(lines: seq<string>, name: string, i: nat, skip: nat, e: nat)
    requires skip == 1 || skip == 2
    requires i + skip <= |lines| && e == BodyEnd(lines, i + skip)
    requires skip == 2 ==> TaggedMatch(lines, i, name)
    requires skip == 1 ==> HostMatch(lines[i], name)
    requires WellScanned(ScanFrom(lines, name, e), name)
    ensures WellScanned([Block(lines[i..e])] + ScanFrom(lines, name, e), name)
  {
    BlockShape(lines, i, skip, e, name);
    if e < |lines| {
      ScanHead(lines, name, e);
    }
    WellScannedCons(Block(lines[i..e]), ScanFrom(lines, name, e), name);
  }

  lemma KeptStep(lines: seq<string>, name: string, i: nat)
    requires i < |lines| && !MatchAt(lines, i, name)
    requires WellScanned(ScanFrom(lines, name, i + 1), name)
    ensures WellScanned([Kept(lines[i])] + ScanFrom(lines, name, i + 1), name)
  {
    if i + 1 < |lines| {
      ScanHead(lines, name, i + 1);
    }
    WellScannedCons(Kept(lines[i]), ScanFrom(lines, name, i + 1), name);
  }

  /** A block cut at the end of its body is a block of the host. */
  lemma BlockShape(lines: seq<string>, i: nat, skip: nat, e: nat, name: string)
    requires skip == 1 || skip == 2
    requires i + skip <= |lines| && e == BodyEnd(lines, i + skip)
    requires skip == 2 ==> TaggedMatch(lines, i, name)
    requires skip == 1 ==> HostMatch(lines[i], name)
    ensures IsHostBlock(lines[i..e], name)
  {
    var b := lines[i..e];
    assert forall k :: skip <= k < |b| ==> b[k] == lines[i + k];
  }

  // ---------------------------------------------------------------------
  // The walk finds a block exactly when the file mentions the host

  lemma HasBlockCons(p: Piece, ps: seq<Piece>)
    ensures HasBlock([p] + ps) <==> p.Block? || HasBlock(ps)
  {
    var qs := [p] + ps;
    assert qs[0] == p;
    assert forall k :: 1 <= k < |qs| ==> qs[k] == ps[k - 1];
    if HasBlock(ps) {
      var k :| 0 <= k < |ps| && ps[k].Block?;
      assert qs[k + 1].Block?;
    }
  }

  /** A block found from line `i` on starts at a match at or after `i`. */
  lemma {:induction false} BlockMeansMatch(lines: seq<string>, name: string, i: nat)
    requires i <= |lines| && HasBlock(ScanFrom(lines, name, i))
    ensures exists j :: i <= j < |lines| && MatchAt(lines, j, name)
    decreases |lines| - i
  {
    if i < |lines| && !MatchAt(lines, i, name) {
      HasBlockCons(Kept(lines[i]), ScanFrom(lines, name, i + 1));
      BlockMeansMatch(lines, name, i + 1);
    }
  }

  /** A match at or after line `i` makes the walk from `i` find a block:
      the walk only skips lines after it has found one. */
  lemma {:induction false} MatchMeansBlock(lines: seq<string>, name: string, i: nat, j: nat)
    requires i <= j < |lines| && MatchAt(lines, j, name)
    ensures HasBlock(ScanFrom(lines, name, i))
    decreases j - i
  {
    if TaggedMatch(lines, i, name) {
      var e := BodyEnd(lines, i + 2);
      HasBlockCons(Block(lines[i..e]), ScanFrom(lines, name, e));
    } else if HostMatch(lines[i], name) {
      var e := BodyEnd(lines, i + 1);
      HasBlockCons(Block(lines[i..e]), ScanFrom(lines, name, e));
    } else {
      MatchMeansBlock(lines, name, i + 1, j);
      HasBlockCons(Kept(lines[i]), ScanFrom(lines, name, i + 1));
    }
  }

  /** The walk sets `hostFound` exactly when some line of the file starts a
      block of the host. */
  lemma ScanFindsIff(lines: seq<string>, name: string)
    ensures HasBlock(Scan(lines, name)) <==> Mentions(lines, name)
  {
    if HasBlock(Scan(lines, name)) {
      BlockMeansMatch(lines, name, 0);
    }
    if Mentions(lines, name) {
      var j :| 0 <= j < |lines| && MatchAt(lines, j, name);
      MatchMeansBlock(lines, name, 0, j);
    }
  }

  /** For a one-word name, the `Host <name>` line after a tags comment is
      itself a `Host` line that names the host. */
  lemma TaggedHostLine(raw: string, name: string)
    requires IsToken(name) && Trim(raw) == "Host " + name
    ensures HostMatch(raw, name)
  {
    assert Trim(raw) == "Host" + " " + name;
    FieldsCons("Host", name);
    FieldsOfToken(name);
    assert Trim(raw)[..5] == "Host ";
  }

  /** `Host <name>` is trimmed and starts a block of the name only. */
  lemma HostLineShape(name: string)
    requires IsToken(name)
    ensures Trim(HostLine(name)) == HostLine(name)
    ensures !IsTagsLine(HostLine(name)) && IsHostLine(HostLine(name))
    ensures forall other :: HostMatch(HostLine(name), other) <==> other == name
  {
    var raw := HostLine(name);
    assert IsTrimmed(raw) by {
      assert raw[|raw| - 1] == name[|name| - 1];
    }
    TrimOfTrimmed(raw);
    assert raw[0] != TagsPrefix[0];
    TaggedHostLine(raw, name);
  }

  /** A tags comment followed by a blank line starts no block: the walk
      keeps both lines, whatever comes after them. */
  lemma SeparatedHead(lines: seq<string>, name: string, t: string)
    requires 2 <= |lines| && lines[0] == TagsLine([t]) && lines[1] == ""
    ensures ScanFrom(lines, name, 0) == [Kept(lines[0]), Kept(lines[1])] + ScanFrom(lines, name, 2)
  {
    TagsBeforeBlank(lines, name, t);
    BlankUnmatched(lines, name, 1);
    ScanKept(lines, name, 0);
    ScanKept(lines, name, 1);
  }

  lemma TagsBeforeBlank(lines: seq<string>, name: string, t: string)
    requires 2 <= |lines| && lines[0] == TagsLine([t]) && lines[1] == ""
    ensures !MatchAt(lines, 0, name)
  {
    TagsLineNotHostLine([t]);
    assert Trim(lines[1]) == "";
  }

  /** An empty line starts no block. */
  lemma BlankUnmatched(lines: seq<string>, name: string, i: nat)
    requires i < |lines| && lines[i] == ""
    ensures !MatchAt(lines, i, name)
  {
    assert Trim(lines[i]) == "";
  }
}

=== FILE: store.dfy ===
/** The config file as text: reading its hosts, looking one up, and
    `AddSSHHost`, which appends a rendered block to the text. */
module Store {
  import opened Results
  import opened Text
  import opened Hosts
  import opened Parser
  import opened Block

  /** The hosts of a config file's text. The line scanner and
      `strings.Split(content, "\n")` agree on every line that matters: the
      scanner drops the trailing `\r` that trimming drops anyway, and it
      skips the empty piece after a final newline, which is blank. */
  function ParseText(content: string): seq<Host> {
    Parse(Split(content, '\n'))
  }

  /** A final newline adds nothing: the empty piece after it is a blank
      line, which the parser skips, just as the scanner never yields it. */
  lemma TrailingNewlineIgnored(content: string)
    ensures ParseText(content + "\n") == ParseText(content)
    ensures PendingText(content + "\n") == PendingText(content)
  {
    var ls := Split(content, '\n');
    assert content + "\n" == content + ['\n'] + "";
    SplitConcat(content, "", '\n');
    var all := ls + [""];
    assert Split(content + "\n", '\n') == all;
    BlankLineReading();
    InertRawLineIgnored(all, |ls|);
    assert all[..|ls|] + all[|ls| + 1..] == ls;
  }

  /** The tags of a `# Tags:` comment that no `Host` line has claimed yet at
      the end of the text. */
  function PendingText(content: string): seq<string> {
    Pending(Split(content, '\n'))
  }

  /** `GetSSHHost` on the text of the config file. */
  function LookupText(content: string, name: string): (r: Result<Host>)
    ensures r.Ok? <==> HostExists(ParseText(content), name)
    ensures r.Ok? ==> r.value.name == name && r.value in ParseText(content)
    ensures r.Err? ==> r.error == NotFound(name)
  {
    GetHost(ParseText(content), name)
  }

  /** `AddSSHHost`: refuses a name the file already declares, and otherwise
      appends the host's block, `ProxyJump` included, after the text. */
  function AddHost(content: string, h: Host): (r: Result<string>)
    ensures r.Err? <==> HostExists(ParseText(content), h.name)
    ensures r.Err? ==> r.error == AlreadyExists(h.name)
    ensures r.Ok? ==> HasPrefix(r.value, content)
  {
    if HostExists(ParseText(content), h.name) then Err(AlreadyExists(h.name))
    else Ok(content + Unlines(Render(h, true)))
  }

  // ---------------------------------------------------------------------
  // Reading an appended block back

  /** The text after an append splits into the old text's lines, the
      block's lines after its separator, and the empty piece after the final
      newline: the block's leading newline ends the old text's last line.
      This needs only that no written line holds a newline. */
  lemma AppendedLines(content: string, h: Host, withProxyJump: bool)
    requires Avoids(Render(h, withProxyJump), '\n')
    ensures Split(content + Unlines(Render(h, withProxyJump)), '\n')
         == Split(content, '\n') + Render(h, withProxyJump)[1..] + [""]
  {
    var r := Render(h, withProxyJump);
    assert r == [""] + r[1..];
    assert Avoids(r[1..], '\n');
    SplitAppendUnlines(content, r[1..]);
  }

  /** The separator line of a block is blank, so folding the block without
      it gives the same state. */
  lemma SeparatorIgnored(st: State, h: Host, withProxyJump: bool)
    ensures RunFrom(st, Lex(Render(h, withProxyJump)[1..])) == RunFrom(st, Lex(Render(h, withProxyJump)))
  {
    var r := Render(h, withProxyJump);
    assert r == [r[0]] + r[1..];
    LexAppend([r[0]], r[1..]);
    LexSingle(r[0]);
    BlankLineReading();
    RunFromAppend(st, [Blank], Lex(r[1..]));
    RunOne(st, Blank);
  }

  /** Folding the lines of the text after an append. */
  lemma AppendedRun(content: string, h: Host)
    requires WellFormed(h)
    ensures var st := RunFrom(Start, Lex(Split(content, '\n')));
      RunFrom(Start, Lex(Split(content + Unlines(Render(h, true)), '\n')))
        == State(Closed(st), Some(Parsed(h, st.pending, true)), [])
  {
    var before := Lex(Split(content, '\n'));
    var blk := Lex(Render(h, true)[1..]);
    var st := RunFrom(Start, before);
    RenderNoNewline(h, true);
    AppendedLines(content, h, true);
    LexAppend(Split(content, '\n') + Render(h, true)[1..], [""]);
    LexAppend(Split(content, '\n'), Render(h, true)[1..]);
    LexSingle("");
    BlankLineReading();
    RunFromAppend(Start, before + blk, [Blank]);
    RunFromAppend(Start, before, blk);
    SeparatorIgnored(st, h, true);
    RenderRun(st, h, true);
    RunOne(RunFrom(st, blk), Blank);
  }

  /** After a successful add the file reads as the hosts it had, followed
      by the new host; the new host also takes the tags of a trailing
      `# Tags:` comment that no host had claimed. */
  lemma AddReadBack(content: string, h: Host)
    requires WellFormed(h) && !HostExists(ParseText(content), h.name)
    ensures AddHost(content, h).Ok?
    ensures ParseText(AddHost(content, h).value)
         == ParseText(content) + [Parsed(h, PendingText(content), true)]
  {
    AppendedRun(content, h);
  }

  /** After a successful add, looking the name up finds the host as added. */
  lemma AddThenLookup(content: string, h: Host)
    requires WellFormed(h) && !HostExists(ParseText(content), h.name)
    ensures AddHost(content, h).Ok?
    ensures LookupText(AddHost(content, h).value, h.name) == Ok(Parsed(h, PendingText(content), true))
  {
    AddReadBack(content, h);
    var hosts := ParseText(content);
    var added := hosts + [Parsed(h, PendingText(content), true)];
    assert FirstIndex(added, h.name) == |hosts| by {
      FirstIndexAppend(hosts, Parsed(h, PendingText(content), true), h.name);
    }
  }

  lemma {:induction false} FirstIndexAppend(hosts: seq<Host>, x: Host, name: string)
    requires !HostExists(hosts, name) && x.name == name
    ensures FirstIndex(hosts + [x], name) == |hosts|
  {
    if hosts != [] {
      assert (hosts + [x])[1..] == hosts[1..] + [x];
      assert hosts[0].name != name;
      assert !HostExists(hosts[1..], name) by {
        forall i | 0 <= i < |hosts[1..]|
          ensures hosts[1..][i].name != name
        {
          assert hosts[1..][i] == hosts[i + 1];
        }
      }
      FirstIndexAppend(hosts[1..], x, name);
    } else {
      assert hosts + [x] == [x];
    }
  }

  /** Adding a name the file already declares changes nothing. */
  lemma DuplicateRefused(content: string, h: Host, i: nat)
    requires i < |ParseText(content)| && ParseText(content)[i].name == h.name
    ensures AddHost(content, h) == Err(AlreadyExists(h.name))
  {
  }
}

=== FILE: text.dfy ===
/** The string operations of Go's `strings` package that the config store
    uses (`TrimSpace`, `HasPrefix`, `TrimPrefix`, `Fields`, `Split`, `Join`,
    `ToLower`), over ASCII text, together with the facts about them that the
    parser and the line rewrites depend on. */
module Text {

  /** ASCII whitespace as `strings.TrimSpace` and `strings.Fields` see it:
      tab, newline, vertical tab, form feed, carriage return and space. */
  predicate IsSpace(c: char) {
    c == ' ' || c == '\t' || c == '\n' || c == '\U{B}' || c == '\U{C}' || c == '\r'
  }

  predicate AllSpace(s: string) {
    forall i :: 0 <= i < |s| ==> IsSpace(s[i])
  }

  /** A non-empty run of non-space characters: one element of `Fields`. */
  predicate IsToken(w: string) {
    w != [] && forall i :: 0 <= i < |w| ==> !IsSpace(w[i])
  }

  /** Neither end of `s` is whitespace. */
  predicate IsTrimmed(s: string) {
    s == [] || (!IsSpace(s[0]) && !IsSpace(s[|s| - 1]))
  }

  predicate HasPrefix(s: string, p: string) {
    |p| <= |s| && s[..|p|] == p
  }

  function TrimPrefix(s: string, p: string): (r: string)
    ensures HasPrefix(s, p) ==> p + r == s
    ensures !HasPrefix(s, p) ==> r == s
  {
    if HasPrefix(s, p) then s[|p|..] else s
  }

  /** `s` with its leading whitespace removed. */
  function TrimLeft(s: string): (r: string)
    ensures |r| <= |s|
    ensures r != [] ==> !IsSpace(r[0])
  {
    if s != [] && IsSpace(s[0]) then TrimLeft(s[1..]) else s
  }

  /** `TrimLeft` removes a prefix, and only whitespace. */
  lemma {:induction false} TrimLeftFacts(s: string)
    ensures TrimLeft(s) == s[|s| - |TrimLeft(s)|..]
    ensures forall i :: 0 <= i < |s| - |TrimLeft(s)| ==> IsSpace(s[i])
  {
    if s != [] && IsSpace(s[0]) {
      TrimLeftFacts(s[1..]);
    }
  }

  /** `s` with its trailing whitespace removed. */
  function TrimRight(s: string): (r: string)
    ensures |r| <= |s|
    ensures r != [] ==> !IsSpace(r[|r| - 1])
  {
    if s != [] && IsSpace(s[|s| - 1]) then TrimRight(s[..|s| - 1]) else s
  }

  /** `TrimRight` removes a suffix, and only whitespace. */
  lemma {:induction false} TrimRightFacts(s: string)
    ensures TrimRight(s) == s[..|TrimRight(s)|]
    ensures forall i :: |TrimRight(s)| <= i < |s| ==> IsSpace(s[i])
    decreases |s|
  {
    if s != [] && IsSpace(s[|s| - 1]) {
      TrimRightFacts(s[..|s| - 1]);
    }
  }

  /** `strings.TrimSpace`: `s` without its leading and trailing whitespace. */
  function Trim(s: string): (r: string)
    ensures IsTrimmed(r)
    ensures |r| <= |s|
  {
    TrimRightFacts(TrimLeft(s));
    TrimRight(TrimLeft(s))
  }

  /** A line trims to nothing exactly when it is all whitespace. */
  lemma TrimEmpty(s: string)
    ensures Trim(s) == [] <==> AllSpace(s)
  {
    var t := TrimLeft(s);
    var a := |s| - |t|;
    TrimLeftFacts(s);
    TrimRightFacts(t);
    if TrimRight(t) != [] {
      var r := TrimRight(t);
      assert s[a + |r| - 1] == r[|r| - 1];
    }
  }

  /** Length of the token at the front of `t`. */
  function TokenLen(t: string): (n: nat)
    ensures n <= |t|
  {
    if t == [] || IsSpace(t[0]) then 0 else 1 + TokenLen(t[1..])
  }

  /** `strings.Fields`: the maximal runs of non-space characters, in order. */
  function Fields(s: string): (r: seq<string>)
    decreases |s|
  {
    var t := TrimLeft(s);
    if t == [] then []
    else
      var n := TokenLen(t);
      [t[..n]] + Fields(t[n..])
  }

  /** `TokenLen` counts the leading non-space characters. */
  lemma {:induction false} TokenLenFacts(t: string)
    ensures forall i :: 0 <= i < TokenLen(t) ==> !IsSpace(t[i])
    ensures TokenLen(t) < |t| ==> IsSpace(t[TokenLen(t)])
  {
    if t != [] && !IsSpace(t[0]) {
      TokenLenFacts(t[1..]);
    }
  }

  /** Every field is a token. */
  lemma {:induction false} FieldsTokens(s: string)
    ensures forall k :: 0 <= k < |Fields(s)| ==> IsToken(Fields(s)[k])
    decreases |s|
  {
    var t := TrimLeft(s);
    if t != [] {
      var n := TokenLen(t);
      TokenLenFacts(t);
      FieldsTokens(t[n..]);
    }
  }

  /** Text that ends in a non-space character has at least one field. */
  lemma FieldsNonEmpty(s: string)
    requires s != [] && !IsSpace(s[|s| - 1])
    ensures |Fields(s)| >= 1
  {
    TrimLeftFacts(s);
  }

  /** `strings.Join`. */
  function Join(parts: seq<string>, sep: string): string
  {
    if |parts| == 0 then ""
    else if |parts| == 1 then parts[0]
    else parts[0] + sep + Join(parts[1..], sep)
  }

  /** `strings.Split` on a one-character separator: the pieces between
      occurrences of `c`. */
  function Split(s: string, c: char): (r: seq<string>)
    ensures |r| >= 1
  {
    if s == [] then [""]
    else
      var rest := Split(s[1..], c);
      if s[0] == c then [""] + rest else [[s[0]] + rest[0]] + rest[1..]
  }

  /** Each line followed by a newline, as the store writes lines to a file. */
  function Unlines(lines: seq<string>): string
  {
    if lines == [] then "" else lines[0] + "\n" + Unlines(lines[1..])
  }

  function LowerChar(c: char): char {
    if 'A' <= c <= 'Z' then (c as int + 32) as char else c
  }

  /** `strings.ToLower`, restricted to ASCII letters. */
  function ToLower(s: string): (r: string)
    ensures |r| == |s|
  {
    seq(|s|, i requires 0 <= i < |s| => LowerChar(s[i]))
  }

  /** A value that survives tokenising and re-joining with single spaces:
      what the parser produces for a directive's value. */
  predicate Canonical(v: string) {
    Join(Fields(v), " ") == v
  }

  // ---------------------------------------------------------------------
  // Trimming

  lemma TrimLeftSpaces(pre: string, s: string)
    requires AllSpace(pre)
    ensures TrimLeft(pre + s) == TrimLeft(s)
  {
    if pre != [] {
      assert (pre + s)[1..] == pre[1..] + s;
      TrimLeftSpaces(pre[1..], s);
    } else {
      assert pre + s == s;
    }
  }

  lemma TrimRightSpaces(s: string, post: string)
    requires AllSpace(post)
    ensures TrimRight(s + post) == TrimRight(s)
    decreases |post|
  {
    if post != [] {
      var p := post[..|post| - 1];
      assert (s + post)[..|s + post| - 1] == s + p;
      TrimRightSpaces(s, p);
    } else {
      assert s + post == s;
    }
  }

  lemma TrimLeftPadded(pre: string, s: string, post: string)
    requires AllSpace(pre) && IsTrimmed(s)
    ensures TrimLeft(pre + s + post) == if s == [] then TrimLeft(post) else s + post
  {
    assert pre + s + post == pre + (s + post);
    TrimLeftSpaces(pre, s + post);
    if s == [] {
      assert s + post == post;
    }
  }

  /** Trimming removes exactly the padding around an already trimmed text. */
  lemma TrimPadded(pre: string, s: string, post: string)
    requires AllSpace(pre) && AllSpace(post) && IsTrimmed(s)
    ensures Trim(pre + s + post) == s
  {
    TrimLeftPadded(pre, s, post);
    if s != [] {
      TrimRightSpaces(s, post);
      assert TrimRight(s) == s;
    } else {
      TrimLeftFacts(post);
    }
  }

  /** Trimming a line that is indentation, a token and anything else keeps
      the token at its front. */
  lemma TrimKeepsToken(pre: string, w: string, rest: string)
    requires AllSpace(pre) && IsToken(w)
    ensures HasPrefix(Trim(pre + w + rest), w)
  {
    TrimLeftPadded(pre, w, rest);
    var s := w + rest;
    TrimRightFacts(s);
    assert s[|w| - 1] == w[|w| - 1];
    assert s[..|w|] == w;
  }

  lemma TrimOfTrimmed(s: string)
    requires IsTrimmed(s)
    ensures Trim(s) == s
  {
    TrimPadded("", s, "");
    assert "" + s + "" == s;
  }

  // ---------------------------------------------------------------------
  // Fields

  /** A text has no fields exactly when it is all whitespace. */
  lemma FieldsEmpty(s: string)
    ensures Fields(s) == [] <==> AllSpace(s)
  {
    var t := TrimLeft(s);
    TrimLeftFacts(s);
    if t != [] {
      assert s[|s| - |t|] == t[0];
    }
  }

  lemma FieldsSkipSpaces(pre: string, s: string)
    requires AllSpace(pre)
    ensures Fields(pre + s) == Fields(s)
  {
    TrimLeftSpaces(pre, s);
  }

  lemma {:induction false} TokenLenOfToken(w: string, rest: string)
    requires IsToken(w)
    requires rest == [] || IsSpace(rest[0])
    ensures TokenLen(w + rest) == |w|
  {
    assert (w + rest)[0] == w[0];
    if |w| == 1 {
      assert (w + rest)[1..] == rest;
    } else {
      assert (w + rest)[1..] == w[1..] + rest;
      TokenLenOfToken(w[1..], rest);
    }
  }

  lemma {:induction false} TrimLeftAppend(s: string, post: string)
    requires AllSpace(post)
    ensures TrimLeft(s) == [] ==> TrimLeft(s + post) == []
    ensures TrimLeft(s) != [] ==> TrimLeft(s + post) == TrimLeft(s) + post
    decreases |s|
  {
    if s == [] {
      assert s + post == post;
      TrimLeftFacts(post);
    } else if IsSpace(s[0]) {
      assert (s + post)[1..] == s[1..] + post;
      TrimLeftAppend(s[1..], post);
    }
  }

  lemma {:induction false} TokenLenAppend(t: string, post: string)
    requires AllSpace(post)
    ensures TokenLen(t + post) == TokenLen(t)
    decreases |t|
  {
    if t == [] {
      assert t + post == post;
    } else if !IsSpace(t[0]) {
      assert (t + post)[1..] == t[1..] + post;
      TokenLenAppend(t[1..], post);
    }
  }

  /** Trailing whitespace adds no field. */
  lemma {:induction false} FieldsTrailing(s: string, post: string)
    requires AllSpace(post)
    ensures Fields(s + post) == Fields(s)
    decreases |s|
  {
    var t := TrimLeft(s);
    TrimLeftAppend(s, post);
    if t != [] {
      var n := TokenLen(t);
      TokenLenAppend(t, post);
      assert n >= 1;
      assert (t + post)[..n] == t[..n];
      assert (t + post)[n..] == t[n..] + post;
      FieldsTrailing(t[n..], post);
    }
  }

  /** `strings.Fields` of a line and of the trimmed line agree. */
  lemma FieldsOfTrim(s: string)
    ensures Fields(Trim(s)) == Fields(s)
  {
    var t := TrimLeft(s);
    assert Fields(t) == Fields(s) by {
      assert TrimLeft(t) == t;
    }
    FieldsOfTrimRight(t);
  }

  lemma FieldsOfTrimRight(t: string)
    ensures Fields(TrimRight(t)) == Fields(t)
  {
    TrimRightFacts(t);
    var m := |TrimRight(t)|;
    assert t == t[..m] + t[m..];
    FieldsTrailing(t[..m], t[m..]);
  }

  /** The lines that are not blank once trimmed. */
  function NonBlank(ls: seq<string>): seq<string> {
    if ls == [] then []
    else (if Trim(ls[0]) != "" then [ls[0]] else []) + NonBlank(ls[1..])
  }

  lemma NonBlankCons(x: string, ls: seq<string>)
    ensures NonBlank([x] + ls) == (if Trim(x) != "" then [x] else []) + NonBlank(ls)
  {
    assert ([x] + ls)[0] == x;
    assert ([x] + ls)[1..] == ls;
  }

  /** Each line trimmed. */
  function TrimAll(ls: seq<string>): (r: seq<string>)
    ensures |r| == |ls|
  {
    seq(|ls|, i requires 0 <= i < |ls| => Trim(ls[i]))
  }

  lemma TrimAllCons(x: string, ls: seq<string>)
    ensures TrimAll([x] + ls) == [Trim(x)] + TrimAll(ls)
  {
  }

  /** A token followed by a space and more text is the first field. */
  lemma FieldsCons(w: string, r: string)
    requires IsToken(w)
    ensures Fields(w + " " + r) == [w] + Fields(r)
  {
    var s := w + " " + r;
    assert s == w + (" " + r);
    assert TrimLeft(s) == s;
    TokenLenOfToken(w, " " + r);
    assert s[..|w|] == w;
    assert s[|w|..] == " " + r;
    FieldsSkipSpaces(" ", r);
  }

  /** Any whitespace character separates the first field from the rest,
      not only a space. */
  lemma FieldsConsAt(w: string, c: char, r: string)
    requires IsToken(w) && IsSpace(c)
    ensures Fields(w + [c] + r) == [w] + Fields(r)
  {
    var s := w + [c] + r;
    assert s == w + ([c] + r);
    assert TrimLeft(s) == s;
    TokenLenOfToken(w, [c] + r);
    assert s[..|w|] == w;
    assert s[|w|..] == [c] + r;
    FieldsSkipSpaces([c], r);
  }

  lemma FieldsOfToken(w: string)
    requires IsToken(w)
    ensures Fields(w) == [w]
  {
    assert TrimLeft(w) == w;
    TokenLenOfToken(w, "");
    assert w + "" == w;
    assert w[..|w|] == w && w[|w|..] == "";
  }

  /** Joining tokens with single spaces and splitting into fields again gives
      the tokens back. */
  lemma {:induction false} FieldsOfJoin(ws: seq<string>)
    requires forall k :: 0 <= k < |ws| ==> IsToken(ws[k])
    ensures Fields(Join(ws, " ")) == ws
  {
    if |ws| == 0 {
    } else if |ws| == 1 {
      FieldsOfToken(ws[0]);
    } else {
      var j := Join(ws[1..], " ");
      assert Join(ws, " ") == ws[0] + " " + j;
      FieldsCons(ws[0], j);
      FieldsOfJoin(ws[1..]);
      assert ws == [ws[0]] + ws[1..];
    }
  }

  /** Tokens joined by spaces make one token only when there is one of
      them. */
  lemma JoinOneToken(ws: seq<string>, w: string)
    requires forall k :: 0 <= k < |ws| ==> IsToken(ws[k])
    requires ws != [] && IsToken(w) && Join(ws, " ") == w
    ensures ws == [w]
  {
    if |ws| >= 2 {
      JoinSpaced(ws);
    }
  }

  lemma JoinSpaced(ws: seq<string>)
    requires |ws| >= 2
    ensures Join(ws, " ")[|ws[0]|] == ' '
  {
    assert Join(ws, " ") == ws[0] + " " + Join(ws[1..], " ");
  }

  /** Tokens joined by single spaces: both ends are tokens' ends, and the
      only whitespace is the separating spaces. */
  lemma {:induction false} JoinTokensShape(ws: seq<string>)
    requires forall k :: 0 <= k < |ws| ==> IsToken(ws[k])
    ensures ws != [] ==> Join(ws, " ") != []
    ensures IsTrimmed(Join(ws, " "))
    ensures forall i :: 0 <= i < |Join(ws, " ")| && IsSpace(Join(ws, " ")[i]) ==> Join(ws, " ")[i] == ' '
  {
    if |ws| > 1 {
      JoinTokensShape(ws[1..]);
      var j := Join(ws[1..], " ");
      var s := ws[0] + " " + j;
      assert Join(ws, " ") == s;
      forall i | 0 <= i < |s|
        ensures IsSpace(s[i]) ==> s[i] == ' '
      {
        if i < |ws[0]| {
          assert s[i] == ws[0][i];
        } else if i > |ws[0]| {
          assert s[i] == j[i - |ws[0]| - 1];
        }
      }
    }
  }

  lemma CanonicalShape(v: string)
    requires Canonical(v)
    ensures IsTrimmed(v)
    ensures v != [] ==> |Fields(v)| >= 1
    ensures '\n' !in v
  {
    FieldsTokens(v);
    JoinTokensShape(Fields(v));
    forall i | 0 <= i < |v|
      ensures v[i] != '\n'
    {
      assert IsSpace(v[i]) ==> v[i] == ' ';
    }
  }

  /** A keyword token, a space and a canonical value form a trimmed line
      whose fields are the keyword and the value's fields. */
  lemma KeywordValueLine(k: string, v: string)
    requires IsToken(k) && Canonical(v) && v != []
    ensures IsTrimmed(k + " " + v)
    ensures Fields(k + " " + v) == [k] + Fields(v)
    ensures Join(Fields(v), " ") == v
  {
    CanonicalShape(v);
    FieldsCons(k, v);
    var s := k + " " + v;
    assert s[0] == k[0];
    assert s[|s| - 1] == v[|v| - 1];
  }

  // ---------------------------------------------------------------------
  // Split and Join

  lemma {:induction false} SplitNoSep(s: string, c: char)
    requires c !in s
    ensures Split(s, c) == [s]
  {
    if s != [] {
      SplitNoSep(s[1..], c);
      assert s == [s[0]] + s[1..];
    }
  }

  /** Splitting at a separator splits the two sides independently. */
  lemma {:induction false} SplitConcat(a: string, b: string, c: char)
    ensures Split(a + [c] + b, c) == Split(a, c) + Split(b, c)
  {
    var s := a + [c] + b;
    if a == [] {
      assert s == [c] + b;
      assert s[1..] == b;
    } else {
      assert s[0] == a[0];
      assert s[1..] == a[1..] + [c] + b;
      SplitConcat(a[1..], b, c);
    }
  }

  lemma JoinConsFirst(x: char, ps: seq<string>, sep: string)
    requires |ps| >= 1
    ensures Join([[x] + ps[0]] + ps[1..], sep) == [x] + Join(ps, sep)
  {
    var qs := [[x] + ps[0]] + ps[1..];
    assert qs[1..] == ps[1..];
  }

  /** `strings.Join(strings.Split(s, c), c) == s`. */
  lemma {:induction false} JoinSplit(s: string, c: char)
    ensures Join(Split(s, c), [c]) == s
  {
    if s != [] {
      var rest := Split(s[1..], c);
      JoinSplit(s[1..], c);
      if s[0] == c {
        assert ([""] + rest)[1..] == rest;
        assert s == [c] + s[1..];
      } else {
        JoinConsFirst(s[0], rest, [c]);
        assert s == [s[0]] + s[1..];
      }
    }
  }

  /** `strings.Split(strings.Join(ps, c), c) == ps` when no piece holds `c`. */
  lemma {:induction false} SplitJoin(ps: seq<string>, c: char)
    requires |ps| >= 1
    requires forall k :: 0 <= k < |ps| ==> c !in ps[k]
    ensures Split(Join(ps, [c]), c) == ps
  {
    SplitNoSep(ps[0], c);
    if |ps| > 1 {
      SplitConcat(ps[0], Join(ps[1..], [c]), c);
      SplitJoin(ps[1..], c);
      assert ps == [ps[0]] + ps[1..];
    }
  }

  /** No piece of a split holds the separator. */
  lemma {:induction false} SplitAvoids(s: string, c: char)
    ensures forall k :: 0 <= k < |Split(s, c)| ==> c !in Split(s, c)[k]
  {
    if s != [] {
      SplitAvoids(s[1..], c);
      var rest := Split(s[1..], c);
      if s[0] != c {
        assert forall k :: 1 <= k < |Split(s, c)| ==> Split(s, c)[k] == rest[k];
        assert Split(s, c)[0] == [s[0]] + rest[0];
      }
    }
  }

  /** No line holds the character `c`. */
  predicate Avoids(lines: seq<string>, c: char) {
    forall k :: 0 <= k < |lines| ==> c !in lines[k]
  }

  lemma AvoidsAppend(a: seq<string>, b: seq<string>, c: char)
    requires Avoids(a, c) && Avoids(b, c)
    ensures Avoids(a + b, c)
  {
    forall k | 0 <= k < |a + b|
      ensures c !in (a + b)[k]
    {
      if k >= |a| {
        assert (a + b)[k] == b[k - |a|];
      }
    }
  }

  /** Lines written one per newline read back as the same lines followed by
      the empty piece after the final newline. */
  lemma {:induction false} SplitUnlines(lines: seq<string>)
    requires Avoids(lines, '\n')
    ensures Split(Unlines(lines), '\n') == lines + [""]
  {
    if lines != [] {
      SplitConcat(lines[0], Unlines(lines[1..]), '\n');
      assert lines[0] + "\n" + Unlines(lines[1..]) == lines[0] + ['\n'] + Unlines(lines[1..]);
      SplitNoSep(lines[0], '\n');
      SplitUnlines(lines[1..]);
      assert lines == [lines[0]] + lines[1..];
    }
  }

  /** Lines written after a text, each ended by a newline and the first
      of them empty, continue the text's own lines: the first newline ends
      the text's last line. */
  lemma SplitAppendUnlines(text: string, rest: seq<string>)
    requires Avoids(rest, '\n')
    ensures Split(text + Unlines([""] + rest), '\n') == Split(text, '\n') + rest + [""]
  {
    assert ([""] + rest)[1..] == rest;
    assert text + Unlines([""] + rest) == text + ['\n'] + Unlines(rest);
    SplitConcat(text, Unlines(rest), '\n');
    SplitUnlines(rest);
  }

  /** A character in neither the pieces nor the separator is not in their
      join. */
  lemma {:induction false} JoinAvoids(parts: seq<string>, sep: string, c: char)
    requires c !in sep
    requires forall k :: 0 <= k < |parts| ==> c !in parts[k]
    ensures c !in Join(parts, sep)
  {
    if |parts| > 1 {
      JoinAvoids(parts[1..], sep, c);
    }
  }

  /** A join of non-empty pieces starts with the first piece's first
      character and ends with the last piece's last character. */
  lemma {:induction false} JoinEnds(parts: seq<string>, sep: string)
    requires |parts| >= 1
    requires forall k :: 0 <= k < |parts| ==> parts[k] != []
    ensures var j := Join(parts, sep);
      && j != []
      && j[0] == parts[0][0]
      && j[|j| - 1] == parts[|parts| - 1][|parts[|parts| - 1]| - 1]
  {
    if |parts| > 1 {
      JoinEnds(parts[1..], sep);
      var rest := Join(parts[1..], sep);
      assert Join(parts, sep) == parts[0] + sep + rest;
    }
  }
}

=== FILE: update.dfy ===
/** `UpdateSSHHost`: every block of the old name is replaced, where it
    stands, by the block of the new host, written as `AddSSHHost` writes it
    but without the `ProxyJump` line. All other lines are kept as they are. */
module Update {
  import opened Results
  import opened Text
  import opened Hosts
  import opened Block
  import opened Parser
  import opened Splice

  /** The lines of the pieces with every block replaced by `block`. */
  function Replace(ps: seq<Piece>, block: seq<string>): seq<string> {
    if ps == [] then []
    else (if ps[0].Kept? then [ps[0].line] else block) + Replace(ps[1..], block)
  }

  /** The rewrite of the file's lines; `NotFound` when no line starts a
      block of `oldName`. */
  function UpdateLines(lines: seq<string>, oldName: string, h: Host): (r: Result<seq<string>>)
    ensures r.Err? <==> !Mentions(lines, oldName)
    ensures r.Err? ==> r.error == NotFound(oldName)
  {
    ScanFindsIff(lines, oldName);
    var ps := Scan(lines, oldName);
    if !HasBlock(ps) then Err(NotFound(oldName)) else Ok(Replace(ps, Render(h, false)))
  }

  /** The rewrite of the file's text, split at newlines and joined back. */
  function UpdateText(content: string, oldName: string, h: Host): (r: Result<string>)
    ensures r.Err? <==> !Mentions(Split(content, '\n'), oldName)
    ensures r.Err? ==> r.error == NotFound(oldName)
  {
    match UpdateLines(Split(content, '\n'), oldName, h)
    case Ok(ls) => Ok(Join(ls, "\n"))
    case Err(e) => Err(e)
  }

  // ---------------------------------------------------------------------
  // The loop of `UpdateSSHHost`

  lemma ReplaceCons(p: Piece, ps: seq<Piece>, block: seq<string>)
    ensures Replace([p] + ps, block) == (if p.Kept? then [p.line] else block) + Replace(ps, block)
  {
    assert ([p] + ps)[0] == p;
    assert ([p] + ps)[1..] == ps;
  }

  /** The loop's invariant: the lines written so far, followed by the
      rewrite of the rest of the walk, are the whole rewrite, and a block
      has been found if one was found so far or is still to come. */
  predicate Walked(lines: seq<string>, name: string, block: seq<string>, i: nat, done: seq<string>, found: bool)
    requires i <= |lines|
  {
    && done + Replace(ScanFrom(lines, name, i), block) == Replace(Scan(lines, name), block)
    && (HasBlock(Scan(lines, name)) <==> found || HasBlock(ScanFrom(lines, name, i)))
  }

  /** Replacing a block opened by a tags comment at line `i`. */
  lemma WalkTagged(lines: seq<string>, name: string, block: seq<string>, i: nat, e: nat,
                   done: seq<string>, found: bool)
    requires i + 2 <= |lines| && TaggedMatch(lines, i, name) && e == BodyEnd(lines, i + 2)
    requires Walked(lines, name, block, i, done, found)
    ensures Walked(lines, name, block, e, done + block, true)
  {
    ScanTagged(lines, name, i);
    WalkPast(lines, name, block, i, e, done, found);
  }

  /** Replacing a block opened by a `Host` line at line `i`. */
  lemma WalkHost(lines: seq<string>, name: string, block: seq<string>, i: nat, e: nat,
                 done: seq<string>, found: bool)
    requires i < |lines| && !TaggedMatch(lines, i, name) && HostMatch(lines[i], name)
    requires e == BodyEnd(lines, i + 1)
    requires Walked(lines, name, block, i, done, found)
    ensures Walked(lines, name, block, e, done + block, true)
  {
    ScanHost(lines, name, i);
    WalkPast(lines, name, block, i, e, done, found);
  }

  lemma WalkPast(lines: seq<string>, name: string, block: seq<string>, i: nat, e: nat,
                 done: seq<string>, found: bool)
    requires i < e <= |lines|
    requires ScanFrom(lines, name, i) == [Block(lines[i..e])] + ScanFrom(lines, name, e)
    requires Walked(lines, name, block, i, done, found)
    ensures Walked(lines, name, block, e, done + block, true)
  {
    ReplaceCons(Block(lines[i..e]), ScanFrom(lines, name, e), block);
    HasBlockCons(Block(lines[i..e]), ScanFrom(lines, name, e));
    assert done + (block + Replace(ScanFrom(lines, name, e), block))
        == (done + block) + Replace(ScanFrom(lines, name, e), block);
  }

  /** Keeping line `i`, which does not start a block. */
  lemma WalkKept(lines: seq<string>, name: string, block: seq<string>, i: nat, done: seq<string>, found: bool)
    requires i < |lines| && !MatchAt(lines, i, name)
    requires Walked(lines, name, block, i, done, found)
    ensures Walked(lines, name, block, i + 1, done + [lines[i]], found)
  {
    ScanKept(lines, name, i);
    ReplaceCons(Kept(lines[i]), ScanFrom(lines, name, i + 1), block);
    HasBlockCons(Kept(lines[i]), ScanFrom(lines, name, i + 1));
  }

  lemma WalkStart(lines: seq<string>, name: string, block: seq<string>)
    ensures Walked(lines, name, block, 0, [], false)
  {
  }

  lemma WalkEnd(lines: seq<string>, name: string, block: seq<string>, done: seq<string>, found: bool)
    requires Walked(lines, name, block, |lines|, done, found)
    ensures done == Replace(Scan(lines, name), block)
    ensures HasBlock(Scan(lines, name)) <==> found
  {
    assert ScanFrom(lines, name, |lines|) == [];
  }

  /** The line loop of `UpdateSSHHost`, statement by statement. */
  method UpdateByWalk(lines: seq<string>, oldName: string, h: Host) returns (r: Result<seq<string>>)
    ensures r == UpdateLines(lines, oldName, h)
  {
    var block := Render(h, false);
    var newLines: seq<string> := [];
    var i := 0;
    var hostFound := false;
    WalkStart(lines, oldName, block);
    while i < |lines|
      invariant 0 <= i <= |lines|
      invariant Walked(lines, oldName, block, i, newLines, hostFound)
      decreases |lines| - i
    {
      var line := Trim(lines[i]);
      var start := i;
      ghost var foundBefore := hostFound;
      if HasPrefix(line, TagsPrefix) && i + 1 < |lines| {
        var nextLine := Trim(lines[i + 1]);
        if nextLine == "Host " + oldName {
          hostFound := true;
          i := SkipBody(lines, i + 2);
          WalkTagged(lines, oldName, block, start, i, newLines, foundBefore);
          newLines := newLines + block;
          continue;
        }
      }
      var isHostLine := HasPrefix(line, "Host ");
      if isHostLine {
        HostLineFields(lines[i]);
      }
      if isHostLine && Fields(line)[1] == oldName {
        hostFound := true;
        i := SkipBody(lines, i + 1);
        WalkHost(lines, oldName, block, start, i, newLines, foundBefore);
        newLines := newLines + block;
        continue;
      }
      WalkKept(lines, oldName, block, i, newLines, hostFound);
      newLines := newLines + [lines[i]];
      i := i + 1;
    }
    WalkEnd(lines, oldName, block, newLines, hostFound);
    if !hostFound {
      return Err(NotFound(oldName));
    }
    return Ok(newLines);
  }

  // ---------------------------------------------------------------------
  // Properties

  /** An update splits the file into lines it passes over and blocks of the
      old name, and writes the new block in place of each of those blocks:
      the passed-over lines stay verbatim and in order, every block runs to
      the end of its body, and no passed-over line starts a block. */
  lemma UpdateSplices(lines: seq<string>, oldName: string, h: Host)
    requires Mentions(lines, oldName)
    ensures UpdateLines(lines, oldName, h).Ok?
    ensures exists ps :: Flatten(ps) == lines && WellScanned(ps, oldName) && HasBlock(ps)
                      && UpdateLines(lines, oldName, h).value == Replace(ps, Render(h, false))
  {
    var ps := Scan(lines, oldName);
    ScanFlatten(lines, oldName, 0);
    ScanWellScanned(lines, oldName, 0);
    ScanFindsIff(lines, oldName);
  }

  /** Each line of a replacement comes from the pieces' kept lines or from
      the block. */
  lemma {:induction false} ReplaceOrigin(ps: seq<Piece>, block: seq<string>)
    ensures forall k :: 0 <= k < |Replace(ps, block)| ==>
      Replace(ps, block)[k] in Flatten(ps) || Replace(ps, block)[k] in block
  {
    if ps != [] {
      ReplaceOrigin(ps[1..], block);
      var head := if ps[0].Kept? then [ps[0].line] else block;
      var whole := if ps[0].Kept? then [ps[0].line] else ps[0].lines;
      assert Replace(ps, block) == head + Replace(ps[1..], block);
      assert Flatten(ps) == whole + Flatten(ps[1..]);
      forall k | 0 <= k < |Replace(ps, block)|
        ensures Replace(ps, block)[k] in Flatten(ps) || Replace(ps, block)[k] in block
      {
        if k >= |head| {
          assert Replace(ps, block)[k] == Replace(ps[1..], block)[k - |head|];
        }
      }
    }
  }

  /** Every line of the updated file is a line of the old file or a line of
      the new host's block. */
  lemma UpdateLineOrigin(lines: seq<string>, oldName: string, h: Host)
    requires UpdateLines(lines, oldName, h).Ok?
    ensures var out := UpdateLines(lines, oldName, h).value;
      forall k :: 0 <= k < |out| ==> out[k] in lines || out[k] in Render(h, false)
  {
    ReplaceOrigin(Scan(lines, oldName), Render(h, false));
    ScanFlatten(lines, oldName, 0);
  }

  /** The update writes no `ProxyJump` line of its own: any `ProxyJump`
      line in the result was already in the file. */
  lemma UpdateWritesNoProxyJump(lines: seq<string>, oldName: string, h: Host)
    requires UpdateLines(lines, oldName, h).Ok?
    ensures var out := UpdateLines(lines, oldName, h).value;
      forall k :: 0 <= k < |out| && HasPrefix(out[k], Indent + "ProxyJump ") ==> out[k] in lines
  {
    UpdateLineOrigin(lines, oldName, h);
    NoProxyJumpLine(h);
  }

  /** A replacement that wrote at least one block is not empty. */
  lemma {:induction false} ReplaceNonEmpty(ps: seq<Piece>, block: seq<string>)
    requires HasBlock(ps) && block != []
    ensures Replace(ps, block) != []
  {
    if ps[0].Kept? {
      HasBlockCons(ps[0], ps[1..]);
      assert ps == [ps[0]] + ps[1..];
    }
  }

  /** Splitting the written text at newlines gives back the updated lines:
      the text holds exactly the lines the update computed. */
  lemma UpdateTextLines(content: string, oldName: string, h: Host)
    requires WellFormed(h) && UpdateText(content, oldName, h).Ok?
    ensures Split(UpdateText(content, oldName, h).value, '\n')
         == UpdateLines(Split(content, '\n'), oldName, h).value
  {
    var lines := Split(content, '\n');
    var out := UpdateLines(lines, oldName, h).value;
    UpdateLineOrigin(lines, oldName, h);
    SplitAvoids(content, '\n');
    RenderNoNewline(h, false);
    ReplaceNonEmpty(Scan(lines, oldName), Render(h, false));
    forall k | 0 <= k < |out|
      ensures '\n' !in out[k]
    {
      if out[k] in lines {
        var j :| 0 <= j < |lines| && lines[j] == out[k];
      } else {
        var j :| 0 <= j < |Render(h, false)| && Render(h, false)[j] == out[k];
      }
    }
    SplitJoin(out, '\n');
    assert "\n" == ['\n'];
  }

  // ---------------------------------------------------------------------
  // A tags comment separated from its host by a blank line

  /** What an update of `a` that changes nothing writes back for
      `SeparatedTags(a, t)`: the old comment stays, because the walk
      replaces a tags comment only when `Host a` is the very next line, and
      the new block writes the label again. */
  function SeparatedUpdated(a: string, t: string): seq<string> {
    [TagsLine([t]), "", "", TagsLine([t]), HostLine(a), FieldLine("HostName", "")]
  }

  /** Updating `a` to the host it already reads as doubles its label. */
  lemma UpdateDoublesTags(a: string, t: string)
    requires IsToken(a) && ValidTag(t)
    ensures Parse(SeparatedTags(a, t)) == [NewHost(a, [t])]
    ensures UpdateLines(SeparatedTags(a, t), a, NewHost(a, [t])) == Ok(SeparatedUpdated(a, t))
    ensures Parse(SeparatedUpdated(a, t)) == [NewHost(a, [t, t])]
  {
    SeparatedParsed(a, t);
    SeparatedRewritten(a, t);
    UpdatedParsed(a, t);
  }

  /** The walk keeps the comment and the blank line and finds the block at
      the `Host` line. */
  lemma SeparatedScanned(a: string, t: string)
    requires IsToken(a) && ValidTag(t)
    ensures var ls := SeparatedTags(a, t);
      Scan(ls, a) == [Kept(ls[0]), Kept(ls[1]), Block(ls[2..3])]
  {
    var ls := SeparatedTags(a, t);
    SeparatedHead(ls, a, t);
    HostLineShape(a);
    assert BodyEnd(ls, 3) == 3;
    ScanHost(ls, a, 2);
  }

  lemma SeparatedRewritten(a: string, t: string)
    requires IsToken(a) && ValidTag(t)
    ensures UpdateLines(SeparatedTags(a, t), a, NewHost(a, [t])) == Ok(SeparatedUpdated(a, t))
  {
    var ls := SeparatedTags(a, t);
    SeparatedScanned(a, t);
    var ps := Scan(ls, a);
    assert HasBlock(ps) by {
      assert ps[2].Block?;
    }
    var blk := Render(NewHost(a, [t]), false);
    PlainBlock(a, t);
    ReplaceThree(ps[0], ps[1], ps[2], blk);
    assert ps == [ps[0], ps[1], ps[2]];
    assert Replace(ps, blk) == [ls[0], ls[1]] + blk;
    assert [ls[0], ls[1]] + blk == SeparatedUpdated(a, t);
    assert UpdateLines(ls, a, NewHost(a, [t])) == Ok(Replace(ps, blk));
  }

  /** The block written for a host with only a name and one label. */
  lemma PlainBlock(a: string, t: string)
    ensures Render(NewHost(a, [t]), false) == ["", TagsLine([t]), HostLine(a), FieldLine("HostName", "")]
  {
    assert !ShowsPort("22");
    assert TailLines(NewHost(a, [t]), false) == [];
  }

  lemma ReplaceThree(p: Piece, q: Piece, r: Piece, block: seq<string>)
    ensures Replace([p, q, r], block)
         == (if p.Kept? then [p.line] else block) + (if q.Kept? then [q.line] else block)
          + (if r.Kept? then [r.line] else block)
  {
    assert [p, q, r] == [p] + ([q] + [r]);
    ReplaceCons(p, [q] + [r], block);
    ReplaceCons(q, [r], block);
    ReplaceCons(r, [], block);
  }

  lemma UpdatedParsed(a: string, t: string)
    requires IsToken(a) && ValidTag(t)
    ensures Parse(SeparatedUpdated(a, t)) == [NewHost(a, [t, t])]
  {
    UpdatedLexed(a, t);
    DoubledRun(a, t);
  }

  lemma UpdatedLexed(a: string, t: string)
    requires IsToken(a) && ValidTag(t)
    ensures Lex(SeparatedUpdated(a, t))
         == [TagsComment([t]), Blank, Blank, TagsComment([t]), Directive("host", a), Short]
  {
    var x, y := [TagsLine([t]), "", ""], [TagsLine([t]), HostLine(a), FieldLine("HostName", "")];
    assert SeparatedUpdated(a, t) == x + y;
    LexAppend(x, y);
    KeptLexed(t);
    BlockLexed(a, t);
  }

  lemma KeptLexed(t: string)
    requires ValidTag(t)
    ensures Lex([TagsLine([t]), "", ""]) == [TagsComment([t]), Blank, Blank]
  {
    TagsLineReading([t]);
    BlankLineReading();
    LexThree(TagsLine([t]), "", "");
  }

  lemma BlockLexed(a: string, t: string)
    requires IsToken(a) && ValidTag(t)
    ensures Lex([TagsLine([t]), HostLine(a), FieldLine("HostName", "")])
         == [TagsComment([t]), Directive("host", a), Short]
  {
    TagsLineReading([t]);
    HostTokenReading(a);
    EmptyHostNameReading();
    LexThree(TagsLine([t]), HostLine(a), FieldLine("HostName", ""));
  }

  /** The `HostName` line written for an empty host name is skipped. */
  lemma EmptyHostNameReading()
    ensures Classify(FieldLine("HostName", "")) == Short
  {
    assert IsToken("HostName");
    FieldLineReading("HostName", "");
  }

  /** Both comments add their label to the pending list, and the host takes
      them together. */
  lemma DoubledRun(a: string, t: string)
    ensures ParseLines([TagsComment([t]), Blank, Blank, TagsComment([t]), Directive("host", a), Short])
         == [NewHost(a, [t, t])]
  {
    var c, b, h := TagsComment([t]), Blank, Directive("host", a);
    var s2 := State([], None, [t]);
    var s4 := State([], None, [t, t]);
    var s6 := State([], Some(NewHost(a, [t, t])), []);
    RunPair(Start, c, b);
    assert RunFrom(Start, [c, b]) == s2;
    RunPair(s2, b, c);
    assert RunFrom(s2, [b, c]) == s4;
    RunPair(s4, h, Short);
    assert RunFrom(s4, [h, Short]) == s6;
    RunFromAppend(s2, [b, c], [h, Short]);
    assert [b, c] + [h, Short] == [b, c, h, Short];
    RunFromAppend(Start, [c, b], [b, c, h, Short]);
    assert [c, b] + [b, c, h, Short] == [c, b, b, c, h, Short];
    assert RunFrom(Start, [c, b, b, c, h, Short]) == s6;
    assert Closed(s6) == [NewHost(a, [t, t])];
  }
}
